=== FILE: README.md ===
# canvas-ios core decisions, modelled in Dafny

This project models six small pieces of the Canvas iOS apps and proves
properties about them.

- **Erased views** (`erased_view.dfy`, `erased_view_properties.dfy`). The test
  helper turns a SwiftUI value into a tree. Each node is an opaque
  `unknown` leaf or a `container` holding erased elements. The tree supports
  `findAll`, `first`, `forEach` and `unknownTypes`. Which kind a value becomes
  depends on its type's `CustomErasable` conformance:
  - stacks, `Form` and `Section` report their children;
  - `_ConditionalContent` erases to the branch that is shown, leaving no node of its own;
  - `ForEach` maps its content closure over its data;
  - `ModifiedContent` erases to its content;
  - any other value is opaque.
- **Context models** (`context_model.dfy`, `context_model_properties.dfy`). A
  context is a pair of a context type and an id. It is read from ids such as
  `course_123` and from paths such as `/api/v1/courses/1/assignments`, and the
  current user is `(user, "self")`.
- **API link rewriting** (`api_links.dfy`, `api_links_properties.dfy`). A
  rendered HTML link with a `data-api-endpoint` attribute gets that endpoint
  as its `href`. The scheme becomes `x-canvas-<type>`, or
  `x-canvas-<type>-array` for a bracketed type. Two string polyfills are
  modelled as well. JavaScript strings are sequences of UTF-16 code units,
  so lengths and positions count code units, as JavaScript does.
- **Icon build** (`build_icons.dfy`, `build_icons_properties.dfy`). These are
  the pure parts of the script that imports the icon set:
  - the camel-case asset name;
  - the download slug and its overrides;
  - the `<name><Line|Solid>` asset naming;
  - the language-direction flag;
  - the deduplicated, sorted list of names;
  - the line folding of the generated Swift `enum` and the JavaScript type
    union.
- **Promise middleware** (`redux_promise.dfy`, `redux_promise_properties.dfy`).
  This is the Teacher app's Redux middleware:
  - an action whose `payload.promise` is a thenable is passed on tagged
    `pending: true`;
  - when the promise resolves, a copy with `result` in its payload is
    dispatched;
  - when it rejects, a copy with `error` in its payload and `error: true` is
    dispatched.
- **File details screen** (`file_details.dfy`, `file_details_properties.dfy`).
  These are the decisions of the screen that previews a course file:
  - which viewer shows the file, and the fallback from the PDF viewer to the
    web view without a licence;
  - where the local copy lives: the documents directory for an annotated PDF,
    otherwise the temporary directory;
  - when a download starts;
  - how the PDF annotation menu is filtered.

`options.dfy` and `text.dfy` hold the shared `Option` type and string
helpers: ASCII case mapping, prefixes, suffixes, occurrences and `Join`.

## Model

| member | source | states |
|---|---|---|
| ErasedViews.Wrap | TestsFoundation/TestsFoundation/Helpers/ErasedView.swift:31-33 | The node stands for the value with its transparent wrappers peeled off. It is an opaque leaf exactly when that value's type has no conformance. |
| ErasedViews.Unwrapped | TestsFoundation/TestsFoundation/Helpers/ErasedView.swift:147-151 | The value a node stands for is never a modifier or another single-child wrapper. |
| ErasedViews.WithBody | TestsFoundation/TestsFoundation/Helpers/ErasedView.swift:27-29 | A view erased with an explicit body is a container holding the view, with exactly one element: the erasure of the body. |
| ErasedViews.WithSingleChild | TestsFoundation/TestsFoundation/Helpers/ErasedView.swift:35-37 | A single-content view erases to whatever its child erases to. For `_ConditionalContent` (lines 94-97) the child is the branch that is shown, so the conditional leaves no node of its own. |
| ErasedViews.WithChildren | TestsFoundation/TestsFoundation/Helpers/ErasedView.swift:39-42 | A multiple-content view is a container with one element per child, in order. Element i is the erasure of child i. |
| ErasedViewProperties.ForEachErasure | TestsFoundation/TestsFoundation/Helpers/ErasedView.swift:136-143 | A `ForEach` over N data elements is a container of exactly N elements. Element i is the erasure of the content built for data element i. |
| ErasedViewProperties.WrapIsFaithful | TestsFoundation/TestsFoundation/Helpers/ErasedView.swift:94-151 | At every node of an erased tree, opacity and absence of a conformance coincide. No node holds a modifier. |
| ErasedViews.FindAll | TestsFoundation/TestsFoundation/Helpers/ErasedView.swift:44-60 | A node whose own view has the requested type yields that view first. An opaque node of another type yields nothing. |
| ErasedViewProperties.FindAllIsPreorder | TestsFoundation/TestsFoundation/Helpers/ErasedView.swift:44-60 | `findAll` equals the pre-order walk of the tree filtered by type. |
| ErasedViewProperties.FirstIsHeadOfFindAll | TestsFoundation/TestsFoundation/Helpers/ErasedView.swift:62-64 | The short-circuiting `first` returns the head of `findAll`. It is nil exactly when `findAll` is empty. |
| ErasedViewProperties.ForEachIsPreorderFold | TestsFoundation/TestsFoundation/Helpers/ErasedView.swift:66-75 | `forEach` hands the callback every node exactly once, parents before children and siblings in order. |
| ErasedViewProperties.UnknownTypesAreLeafNames | TestsFoundation/TestsFoundation/Helpers/ErasedView.swift:77-85 | `unknownTypes` holds a type name exactly when some opaque node of the tree has a view of that type. |
| ErasedViewProperties.UnknownTypesOfWrap | TestsFoundation/TestsFoundation/Helpers/ErasedView.swift:77-85 | The unknown types of an erased value are exactly the types without a conformance that erasure reaches. |
| ErasedViewProperties.StackErasure | TestsFoundation/TestsFoundation/Helpers/ErasedView.swift:107-151 | A vertical stack of two sections, one of them padded, erases to two section containers. The padding leaves no node. |
| ErasedViewProperties.StackRows | TestsFoundation/TestsFoundation/Helpers/ErasedView.swift:58-60 | `findAll` over that stack returns the four rows in section-major order. |
| ErasedViewProperties.StackSections | TestsFoundation/TestsFoundation/Helpers/ErasedView.swift:58-60 | `findAll` over that stack finds both sections, in order. |
| ErasedViewProperties.StackNoModifier | TestsFoundation/TestsFoundation/Helpers/ErasedView.swift:147-151 | `findAll` over that stack finds no modifier. |
| ErasedViewProperties.StackUnknownTypes | TestsFoundation/TestsFoundation/Helpers/ErasedView.swift:77-85 | The stack's only unknown type is the row type, reported once. |
| ContextModels.Make | Core/Core/Contexts/ContextModel.swift:29-32 | The type is stored as given and the id after tilde expansion. |
| ContextModels.CurrentUser | Core/Core/Contexts/ContextModel.swift:25-27 | The current user is the user context type with the expanded id `self`. |
| ContextModels.FromParts | Core/Core/Contexts/ContextModel.swift:34-39 | A context exists exactly when there are at least two parts and the normalised first part is a known raw value. Its type is that raw value's type and its id is the expanded second part. |
| ContextModels.SplitOn | Core/Core/Contexts/ContextModel.swift:42 | Splitting omits empty pieces: every piece is non-empty and free of the separator character, compared scalar by scalar. |
| ContextModelProperties.SplitJoinRoundTrip | Core/Core/Contexts/ContextModel.swift:41-43 | Splitting a join of non-empty, separator-free pieces gives back exactly those pieces. |
| ContextModelProperties.SplitKeepsContent | Core/Core/Contexts/ContextModel.swift:42 | Concatenating the pieces gives the input with the separators removed and nothing else removed. |
| ContextModels.DropApiSegments | Core/Core/Contexts/ContextModel.swift:46 | No `api` or `v1` segment survives, and every other segment does. |
| ContextModelProperties.DropApiSegmentsAnywhere | Core/Core/Contexts/ContextModel.swift:46 | An `api` or `v1` segment is dropped at any position, and the other segments keep their order. |
| ContextModelProperties.TrimSRemovesOuterRuns | Core/Core/Contexts/ContextModel.swift:36 | Trimming `s` removes exactly the runs of `s` at both ends. |
| ContextModelProperties.TypeKeyOfWord | Core/Core/Contexts/ContextModel.swift:36-37 | For a word that neither starts nor ends with `s`, a part that lowercases to the word, or to the word plus a plural `s`, is looked up by the word: `Courses` finds `course`. Other words are not kept intact, as the next two rows show. |
| ContextModelProperties.TypeKeyDropsLeadingS | Core/Core/Contexts/ContextModel.swift:36 | Trimming removes a leading `s` as well, so a part `s<rest>` is looked up like `<rest>`. |
| ContextModelProperties.SPluralTypeKey | Core/Core/Contexts/ContextModel.swift:36 | A lowercase word between an `s` and a plural `s` loses both: `sections` is looked up as `ection`, not as `section`. |
| ContextModels.TypeKey | Core/Core/Contexts/ContextModel.swift:36 | Computes only. `TypeKeyOfWord`, `TypeKeyDropsLeadingS` and `SPluralTypeKey` state which raw value a part is looked up by. |
| ContextModels.FromCanvasContextID | Core/Core/Contexts/ContextModel.swift:41-43 | Computes only. `ContextModelProperties.CanvasContextIDParts` proves that `<type>_<id>` gives the context of the parts `[type, id]`. |
| ContextModels.FromPath | Core/Core/Contexts/ContextModel.swift:45-47 | Computes only. `ContextModelProperties.ApiPathParts` proves that `/api/v1/<type>/<id>/...` gives the context of the parts `[type, id]`. |
| ContextModelProperties.FromPartsIgnoresRest | Core/Core/Contexts/ContextModel.swift:34-38 | Parts after the second never change the result. |
| ContextModelProperties.CanvasContextIDParts | Core/Core/Contexts/ContextModel.swift:41-43 | `<type>_<id>` is read as the parts `[type, id]`. |
| ContextModelProperties.ApiPathParts | Core/Core/Contexts/ContextModel.swift:45-47 | `/api/v1/<type>/<id>/...` is read as the parts `[type, id]`, whatever follows them. |
| ApiLinks.StartsWith | Canvas/CanvasKit1/Resources/rewrite-api-links.js:16-20 | The `startsWith` polyfill holds exactly when the argument is a prefix of the receiver. |
| ApiLinks.EndsWithAsWritten | Canvas/CanvasKit1/Resources/rewrite-api-links.js:22-26 | The `endsWith` polyfill as written is a suffix test for arguments no longer than the receiver, in UTF-16 code units. It is true for an argument exactly one code unit longer, and false for longer ones. |
| ApiLinks.EndsWith | Canvas/CanvasKit1/Resources/rewrite-api-links.js:22-26 | The polyfill as intended holds exactly when the argument is a suffix of the receiver. |
| ApiLinkProperties.EndsWithAsWrittenOneTooLong | Canvas/CanvasKit1/Resources/rewrite-api-links.js:22-26 | `"".endsWith(u)` is true as written for every single code unit `u`, although `u` is not a suffix of the empty string. |
| ApiLinkProperties.EmptyEndsWithChar | Canvas/CanvasKit1/Resources/rewrite-api-links.js:22-26 | For a one-character argument, `"".endsWith(c)` as written is true exactly when `c` lies in the Basic Multilingual Plane. A character outside it is a surrogate pair, two code units, and gives false. |
| ApiLinkProperties.SchemeTypeAsWrittenAgrees | Canvas/CanvasKit1/Resources/rewrite-api-links.js:35-39 | The scheme type computed with the faulty polyfill equals the one computed with the intended polyfill for every return type. |
| ApiLinkProperties.SchemeTypeCases | Canvas/CanvasKit1/Resources/rewrite-api-links.js:35-39 | The scheme type is the lowercased return type. When that has at least two code units and is bracketed, the brackets are replaced by an `-array` suffix. |
| ApiLinkProperties.BracketedSchemeType | Canvas/CanvasKit1/Resources/rewrite-api-links.js:37-39 | A return type `[T]` gives the scheme type `t-array`. |
| ApiLinkProperties.UnbracketedSchemeType | Canvas/CanvasKit1/Resources/rewrite-api-links.js:35-42 | Any other return type is only lowercased. A missing one gives the scheme `x-canvas-`. |
| ApiLinks.IndexOf | Canvas/CanvasKit1/Resources/rewrite-api-links.js:18 | `indexOf` is -1 exactly when there is no occurrence at or after the clamped start. Otherwise it is the code-unit position of the first such occurrence. |
| ApiLinkProperties.LowerUnitsOfUnits | Canvas/CanvasKit1/Resources/rewrite-api-links.js:35 | `toLowerCase` on the code units of a string gives the code units of the lowercased string, surrogate pairs included. |
| ApiLinks.LastIndexOf | Canvas/CanvasKit1/Resources/rewrite-api-links.js:25 | `lastIndexOf` is -1 or an occurrence starting at or before the clamped position, and no occurrence lies after it up to that position. |
| ApiLinks.Slice | Canvas/CanvasKit1/Resources/rewrite-api-links.js:38 | The result is never longer than the string. That `slice(1, -1)` of a string of at least two code units is its inner part is `ApiLinkProperties.SliceInner`. |
| ApiLinks.SplitBy | Canvas/CanvasKit1/Resources/rewrite-api-links.js:41 | There is always at least one piece. `ApiLinkProperties.SplitByJoin` proves that joining the pieces with the separator gives back the string. `ApiLinkProperties.SplitByTail` proves that the pieces after the first are the split of what follows the first separator. |
| ApiLinks.RewriteEndpoint | Canvas/CanvasKit1/Resources/rewrite-api-links.js:41-43 | Computes only. Its meaning is `ApiLinkProperties.RewriteEndpointKeepsRest`: the text before the first `://` becomes the scheme name and the rest is kept. |
| ApiLinks.SchemeType | Canvas/CanvasKit1/Resources/rewrite-api-links.js:35-39 | Computes only. It is pinned by `ApiLinkProperties.SchemeTypeCases` (the exact case split), `BracketedSchemeType` and `UnbracketedSchemeType`. |
| ApiLinks.SchemeTypeAsWritten | Canvas/CanvasKit1/Resources/rewrite-api-links.js:35-39 | Computes the scheme type with the polyfill as written. `ApiLinkProperties.SchemeTypeAsWrittenAgrees` proves it equals `SchemeType` for every return type. |
| ApiLinkProperties.SplitByJoin | Canvas/CanvasKit1/Resources/rewrite-api-links.js:41-43 | Splitting at a non-empty separator and joining with it gives back the string. |
| ApiLinkProperties.RewriteEndpointKeepsRest | Canvas/CanvasKit1/Resources/rewrite-api-links.js:41-43 | Only the text before the first `://` is replaced, and everything from it on is kept. An endpoint without `://` becomes the bare scheme name. |
| ApiLinkProperties.RewriteLinkScheme | Canvas/CanvasKit1/Resources/rewrite-api-links.js:34-44 | A link to `<scheme>://<rest>` gets the href `x-canvas-<type>://<rest>`, whatever `<rest>` contains. |
| ApiLinks.RewriteLink | Canvas/CanvasKit1/Resources/rewrite-api-links.js:34-45 | The data attributes are kept. A link without an endpoint is left unchanged. |
| ApiLinks.RewriteLinks | Canvas/CanvasKit1/Resources/rewrite-api-links.js:29-47 | Every link of the document is rewritten on its own, in document order. |
| ApiLinkProperties.RewriteLinksIdempotent | Canvas/CanvasKit1/Resources/rewrite-api-links.js:29-47 | Running the rewrite on an already rewritten page changes nothing. |
| BuildIcons.Camel | scripts/build-icons.js:88 | The name is no longer than the icon, and in it no non-word character is ever followed by a word character. |
| BuildIconProperties.CamelOfKebab | scripts/build-icons.js:88 | `a-b-c` becomes `aBC...`: the first segment is kept and every later one is capitalised, with the dashes dropped. |
| BuildIconProperties.CamelOfSeparatedWord | scripts/build-icons.js:88 | A run of non-word characters before a word is dropped, and the word is capitalised. |
| BuildIconProperties.CamelIdempotent | scripts/build-icons.js:88 | Renaming an already renamed icon changes nothing. |
| BuildIcons.Slug | scripts/build-icons.js:91 | The slug is the icon or its override for this type. A non-empty override always wins, and the slug is empty only for an empty icon, so an empty override falls back to the icon. |
| BuildIconProperties.SlugOfIconOverrides | scripts/build-icons.js:76-78 | With the script's overrides, only the Line variant of `star` downloads another slug, `star-light`. |
| BuildIcons.HasLanguageDirection | scripts/build-icons.js:103-104 | The asset is marked left-to-right exactly when its name contains `right` or `left`, ignoring case. |
| BuildIconProperties.DirectionOfSuffix | scripts/build-icons.js:103-104 | A name ending in any casing of `left` or `right` is marked. |
| BuildIconProperties.DirectionIgnoresCase | scripts/build-icons.js:103-104 | Lowercasing a name never changes whether it is marked. |
| BuildIcons.MakeAsset | scripts/build-icons.js:87-104 | Each asset has the camel name, the requested type, the slug for that icon and type, and the direction flag of its name. |
| BuildIcons.Assets | scripts/build-icons.js:86-117 | Each icon yields two assets, Line then Solid, in list order. |
| BuildIcons.LessTotal | scripts/build-icons.js:147 | Two different names are always ordered one way or the other. |
| BuildIcons.LessTransitive | scripts/build-icons.js:147 | The default sort order is transitive. |
| BuildIcons.Insert | scripts/build-icons.js:85 | Adding a name to a sorted set keeps it sorted and adds exactly that name. |
| BuildIcons.SortedSet | scripts/build-icons.js:147 | `Array.from(set).sort()` is strictly sorted and holds exactly the names added. |
| BuildIcons.IconNames | scripts/build-icons.js:85-90 | The generated name list is strictly sorted and holds exactly the camel names of the icon list. |
| BuildIconProperties.SortedDistinct | scripts/build-icons.js:85 | A name appears in the generated list at most once. |
| BuildIconProperties.SortedUnique | scripts/build-icons.js:147 | Two strictly sorted lists with the same members are equal. |
| BuildIconProperties.SortedSetOrderIndependent | scripts/build-icons.js:85-90 | The generated list depends only on which names occur, not on their order or repetition. |
| BuildIcons.Step | scripts/build-icons.js:150-154 | An item starts a new line exactly when the counter plus the separator and the item would exceed 100. The counter then restarts at the indent plus the item, and otherwise stays within 100. |
| BuildIcons.Fold | scripts/build-icons.js:147-156 | Folding keeps every item in place, with or without the indent in front. |
| BuildIconProperties.FoldAppend | scripts/build-icons.js:147-156 | Folding a concatenation is folding the second list from the counter the first one left. |
| BuildIconProperties.FoldBreaksWhenFull | scripts/build-icons.js:150-154 | Item i gets the indent exactly when the counter left by the items before it, plus the separator and the item, exceeds 100. |
| BuildIconProperties.CounterWithinLimit | scripts/build-icons.js:119-154 | If every item fits on a line of its own, the counter never exceeds 100. |
| BuildIconProperties.UnindentFold | scripts/build-icons.js:147-156 | Removing the inserted indents gives back the items. |
| BuildIconProperties.SwiftCasesUnwrapped | scripts/build-icons.js:146-156 | The Swift `enum` lists every name of the given list, in order, once the line breaks are undone. For the list `IconNames` builds, each name occurs once (`SortedDistinct`). |
| BuildIconProperties.JsUnionUnwrapped | scripts/build-icons.js:186-195 | The JavaScript type union lists every name of the given list, quoted and in order, once the line breaks are undone. For the list `IconNames` builds, each name occurs once (`SortedDistinct`). |
| BuildIconProperties.SwiftLookupMatchesAsset | scripts/build-icons.js:159-161 | The Swift `icon` lookup of a case and type names the asset the script created. For `import` this holds because the backticks are not part of the raw value. |
| BuildIconProperties.JsIconMatchesAsset | scripts/build-icons.js:197-199 | The JavaScript `icon` function names the asset the script created for that name and type. |
| BuildIcons.SwiftCases | scripts/build-icons.js:146-156 | Computes only. `BuildIconProperties.SwiftCasesUnwrapped` states what it lists. |
| BuildIcons.JsUnion | scripts/build-icons.js:186-195 | Computes only. `BuildIconProperties.JsUnionUnwrapped` states what it lists. |
| BuildIcons.SwiftLookup | scripts/build-icons.js:159-161 | Computes only. `BuildIconProperties.SwiftLookupMatchesAsset` proves it names the asset the script created. |
| BuildIcons.JsIcon | scripts/build-icons.js:197-199 | The result is as long as the name and the type together. `BuildIconProperties.JsIconMatchesAsset` proves it names the asset the script created. |
| BuildIconProperties.AssetsAreListed | scripts/build-icons.js:86-93 | Every created asset is listed, and both generated lookups find it. |
| ReduxPromiseProperties.IsPromiseMeans | rn/Teacher/src/redux/middleware/redux-promise.js:28-30 | A value counts as a promise exactly when it is an object with a function-valued `then`. |
| ReduxPromise.IsPromise | rn/Teacher/src/redux/middleware/redux-promise.js:28-30 | Computes only. `ReduxPromiseProperties.IsPromiseMeans` states which values count as promises. |
| ReduxPromise.Qualifies | rn/Teacher/src/redux/middleware/redux-promise.js:48 | Computes only. `ReduxPromise.Route` tags exactly the actions that qualify. `ResolvedPassesThrough`, `RejectedPassesThrough`, `PromisePayloadPassesThrough` and `ErrorActionPassesThrough` name actions that do not. |
| ReduxPromise.PromiseOf | rn/Teacher/src/redux/middleware/redux-promise.js:47 | A truthy result is the `promise` member of an object payload. |
| ReduxPromise.Route | rn/Teacher/src/redux/middleware/redux-promise.js:46-66 | Reading `payload` from a `null` or `undefined` action throws. Any other action is tagged exactly when it is an FSA with a thenable `payload.promise` and no truthy `error`, and is otherwise passed on unchanged. A tagged copy has `pending: true` and every other field unchanged. |
| ReduxPromise.Resolved | rn/Teacher/src/redux/middleware/redux-promise.js:50-53 | The resolved copy keeps every field but the payload. Its payload has `result` set, no `promise`, and every other member unchanged. |
| ReduxPromise.Rejected | rn/Teacher/src/redux/middleware/redux-promise.js:55-57 | The rejected copy has `error: true` and every other field but the payload unchanged. Its payload has `error` set and keeps every other member, `promise` included. |
| ReduxPromiseProperties.ResolvedPassesThrough | rn/Teacher/src/redux/middleware/redux-promise.js:48-53 | The resolved copy is never tagged again, because it has no promise left. |
| ReduxPromiseProperties.RejectedPassesThrough | rn/Teacher/src/redux/middleware/redux-promise.js:48-57 | The rejected copy is never tagged again, because it carries `error: true`. |
| ReduxPromiseProperties.SettledPassesThrough | rn/Teacher/src/redux/middleware/redux-promise.js:48-57 | Whatever a tagged action's promise settles to, the copy that follows is passed on untouched. |
| ReduxPromiseProperties.PromisePayloadPassesThrough | rn/Teacher/src/redux/middleware/redux-promise.js:47-48 | A payload that is itself a promise, with no `promise` member, is not awaited. |
| ReduxPromiseProperties.ErrorActionPassesThrough | rn/Teacher/src/redux/middleware/redux-promise.js:48 | An action with a truthy `error` is never awaited. |
| FileDetails.SelectViewer | Core/Core/Files/FileDetails/FileDetailsViewController.swift:310-325 | The audio viewer is chosen exactly for an `audio` mime class or an `audio/` content type. The image viewer is chosen exactly for image files that are not audio. The AR thumbnail is chosen exactly for USDZ files that are neither. The PDF and video viewers are chosen only for their mime classes, and those classes never fall to the web view. |
| FileDetailsProperties.SelectViewerIsFirstMatch | Core/Core/Files/FileDetails/FileDetailsViewController.swift:310-325 | The choice is the viewer of the first case that matches, with the web view as the default. |
| FileDetailsProperties.AudioContentTypeWins | Core/Core/Files/FileDetails/FileDetailsViewController.swift:311-314 | An `audio/` content type selects the audio viewer whatever the mime class. |
| FileDetailsProperties.PdfWithAudioContentType | Core/Core/Files/FileDetails/FileDetailsViewController.swift:311-320 | A `pdf` file with an `audio/mpeg` content type is played, not shown as a PDF. |
| FileDetails.Shown | Core/Core/Files/FileDetails/FileDetailsViewController.swift:426-428 | The PDF viewer appears only with a licence. Any other change is PDF to web. |
| FileDetailsProperties.PdfFallsBackToWeb | Core/Core/Files/FileDetails/FileDetailsViewController.swift:319-320 | A PDF is shown in the PDF viewer with a licence and in the web view without one. |
| FileDetails.FilePathComponent | Core/Core/Files/FileDetails/FileDetailsViewController.swift:253-256 | There is a path exactly when there is a session and a file name. It starts with the session and ends with the name. |
| FileDetailsProperties.FilePathComponentSplits | Core/Core/Files/FileDetails/FileDetailsViewController.swift:253-256 | The path splits back into exactly the session, the file id and the name. |
| FileDetails.PrepLocalURL | Core/Core/Files/FileDetails/FileDetailsViewController.swift:262-271 | There is a local URL exactly when there is a path, and its path is that path. It lies in the documents directory exactly for a PDF already stored there. |
| FileDetailsProperties.OtherFilesInTemporary | Core/Core/Files/FileDetails/FileDetailsViewController.swift:265-271 | A file that is not a PDF is always kept in the temporary directory. |
| FileDetailsProperties.AnnotatedPdfReopened | Core/Core/Files/FileDetails/FileDetailsViewController.swift:265-276 | A PDF annotated before is shown from the documents directory and not downloaded again. |
| FileDetails.DownloadComplete | Core/Core/Files/FileDetails/FileDetailsViewController.swift:307-326 | Nothing is shown unless there is a file record and a local URL whose file exists. If shown, it is shown at that URL in the selected viewer after the licence fallback. |
| FileDetails.DownloadFile | Core/Core/Files/FileDetails/FileDetailsViewController.swift:274-279 | The prepared local URL is remembered. A download of the given URL starts exactly when there is no existing local copy. Otherwise the completion handler runs. |
| FileDetailsProperties.DownloadWithoutPath | Core/Core/Files/FileDetails/FileDetailsViewController.swift:262-279 | Without a session or a file name there is no local URL and the download always starts. |
| FileDetails.Update | Core/Core/Files/FileDetails/FileDetailsViewController.swift:126-140 | Something happens only when the record has a URL that differs from the remembered one, and that URL is then remembered. Otherwise neither the screen nor anything else changes. The record, session and file id are never changed. |
| FileDetailsProperties.UpdateSettles | Core/Core/Files/FileDetails/FileDetailsViewController.swift:136-139 | Updating again with the same record does nothing. |
| FileDetailsProperties.NewURLDownloads | Core/Core/Files/FileDetails/FileDetailsViewController.swift:136-139 | A changed URL is downloaded when there is no local copy. |
| FileDetails.AdjustItem | Core/Core/Files/FileDetails/FileDetailsViewController.swift:538-547 | The note item is dropped. The inspector item is retitled `Style`. The remove item gets the trash icon. Every other item is kept as it is. Identifier and action are always kept. |
| FileDetails.AdjustMenu | Core/Core/Files/FileDetails/FileDetailsViewController.swift:538-547 | The menu shown has no note item and is no longer than the menu given. It has one item per non-note item, and item `i` is the closure's result for the `i`-th non-note item. |
| FileDetailsProperties.AdjustMenuKeepsOrder | Core/Core/Files/FileDetails/FileDetailsViewController.swift:538-547 | Every item that is not a note is kept, in order, with its identifier and action. At its position the inspector item is titled `Style` and the remove item has the trash icon. Every other item is exactly the one given. |
| FileDetailsProperties.AdjustMenuKeepsOthers | Core/Core/Files/FileDetails/FileDetailsViewController.swift:546 | A menu without note, inspector or remove items comes through unchanged. |
| FileDetailsProperties.AdjustMenuIdempotent | Core/Core/Files/FileDetails/FileDetailsViewController.swift:538-547 | Adjusting an adjusted menu changes nothing. |

## Left out

- `ContextModel.init?(url:)` (Core/Core/Contexts/ContextModel.swift:49-51) is not modelled. It only forwards the URL's path, and URL parsing is outside this model.
- The `ContextType` enum and `ID.expandTildeID` are not part of this model. They are parameters: a map from raw values to types, the user type, and an id function. `Codable`, `Equatable` and `Hashable` are not modelled.
- ContextModels.SplitOn: cuts at every separator scalar. Swift's `split(separator:)` compares grapheme clusters, so an `_` or `/` followed by a combining mark is not a separator there (`"x_\u{301}1"` is one piece in Swift and two here). The two agree whenever no separator starts or ends a multi-scalar cluster.
- Text.Lower: lowercases ASCII letters only. Swift `lowercased()` and JavaScript `toLowerCase()` also map letters of other scripts.
- ApiLinks.LowerUnits: lowercases ASCII letters only, for the same reason.
- BuildIcons.Less: compares characters. JavaScript's default `sort()` compares UTF-16 code units, and the two orders differ only for characters outside the Basic Multilingual Plane.
- BuildIcons.Step: measures an item in characters where JavaScript's `length` counts UTF-16 code units. The two agree for names inside the Basic Multilingual Plane. Every name in the script's whitelist is ASCII.
- Erased views:
  - ViewInspector's reflection is not modelled. The children, content and `ForEach` data and closure it would report are carried inside each view value.
  - A `try!` that would trap is excluded by the `WellFormed` precondition: every datum must have content.
  - A Swift type test `as? V` is equality of type names, so subclassing and protocol types are not modelled.
  - The lazy `AnySequence` is materialised. `first` is modelled as a search that stops at the first hit.
  - The generic `View.erased` fallback (ErasedView.swift:153-159) is not a `CustomErasable` conformance. The model follows the code: a value of any other type stays an opaque leaf and does not have its body erased.
  - Which views use `init(_:body:)` is decided by their own conformances, which lie outside this model. The `Bodied` kind stands for them.
- API link rewriting:
  - Walking the DOM and reading `dataset` are not modelled. The document is a sequence of links carrying their two data attributes.
  - The browser's normalisation of the value assigned to `href` is not modelled.
  - The test `datatype != undefined` is always true and is not modelled.
  - The polyfills are modelled as if installed. Where an engine already has native `startsWith` and `endsWith`, the intended behaviour applies.
- Icon build:
  - Shell commands, `curl`, `cairosvg`, `sed`, file writes, `echo` and the current year are not modelled.
  - The whitelist is a parameter rather than a constant.
  - Of the generated files, only the case list, the type union, the lookup functions and the language-direction entry are modelled.
  - An icon named after an `Object.prototype` property would read that property as an override. This is not modelled.
- Promise middleware:
  - Promise scheduling and the `next` and `dispatch` calls are not modelled. Routing yields an outcome, and the resolved and rejected copies are functions of the action and the settled value.
  - `isFSA` comes from a library this model does not include, so it is a parameter.
  - The header comment (redux-promise.js:36-38) also promises to await a payload that is itself a promise. The code at line 47 reads only `payload.promise`, and the model follows the code. `ReduxPromiseProperties.PromisePayloadPassesThrough` states the difference.
  - JavaScript values are modelled without key order, prototypes, getters, non-integer numbers or `NaN`. Functions are compared by identity and carry no properties.
- File details screen:
  - UIKit, AVKit, PDFKit, PSPDFKit, QuickLook, URLSession and FileManager are not modelled.
  - The existence of files is a set of local URLs, and the PSPDFKit licence is a boolean.
  - The download's file moves (FileDetailsViewController.swift:287-298), progress (281-285), zoom, error display, notifications, title and lock labels (132-134) and routing are not modelled.
  - Saving annotations into the documents directory is not modelled.
  - `update` when no file record is loaded (127-129) only shows an error, which is not modelled.
  - The localisation of the `Style` title is not modelled. The PSPDFKit `TextMenu` raw values are parameters.
  - An item's action block is an opaque number.
- FileDetails.AdjustItem: returns a retitled copy of the inspector item. PSPDFKit's `MenuItem` is a class, so the source retitles the caller's own item in place (FileDetailsViewController.swift:540-542). That aliasing is not modelled.

## Findings

| source | as written | input that shows it | evidently intended | confidence | as-written member | corrected member |
|---|---|---|---|---|---|---|
| Canvas/CanvasKit1/Resources/rewrite-api-links.js:22-26 | The `endsWith` polyfill computes the start position as the length difference and compares `lastIndexOf` from there with it. When the argument is one code unit longer, both are -1 and the answer is true. This is shown by `ApiLinkProperties.EndsWithAsWrittenOneTooLong`. | `"".endsWith("]")` | false: the argument is not a suffix, so a negative start position must never count as a match | not executed | ApiLinks.EndsWithAsWritten | ApiLinks.EndsWith |

In the rewrite itself the fault is masked. A bracketed type must also start
with `[`, which an empty type does not. `ApiLinkProperties.SchemeTypeAsWrittenAgrees`
proves that the scheme type is the same under both polyfills.

=== FILE: api_links.dfy ===
/** Rewriting of API links in rendered HTML
    (Canvas/CanvasKit1/Resources/rewrite-api-links.js): a link that carries
    a `data-api-endpoint` gets that endpoint as its `href`, with the scheme
    replaced by `x-canvas-<type>` (`x-canvas-<type>-array` for a bracketed
    type), so that the app can route it.

    A JavaScript string is a sequence of UTF-16 code units, and its
    `length` and the positions `indexOf`, `lastIndexOf` and `slice` use
    count code units. Only the JavaScript semantics this file relies on are
    modelled: those three, `split` with a non-empty separator, `join` and
    `toLowerCase` (ASCII letters only). */
module ApiLinks {
  import opened Options
  import opened Text

  /** A UTF-16 code unit. */
  newtype CodeUnit = x: int | 0 <= x < 0x1_0000

  /** A JavaScript string. */
  type JsString = seq<CodeUnit>

  /** The UTF-16 encoding of one character: a single code unit inside the
      Basic Multilingual Plane, a surrogate pair outside it. */
  function Encode(c: char): (r: JsString)
    ensures 1 <= |r| <= 2
    ensures |r| == 1 <==> c as int < 0x1_0000
    ensures |r| == 1 ==> r[0] as int == c as int
    ensures |r| == 2 ==> 0xD800 <= r[0] < 0xDC00 && 0xDC00 <= r[1] < 0xE000
    ensures |r| == 2 ==> 0x1_0000 + (r[0] as int - 0xD800) * 0x400 + (r[1] as int - 0xDC00) == c as int
  {
    if c as int < 0x1_0000 then [c as int as CodeUnit]
    else
      var v := c as int - 0x1_0000;
      [(0xD800 + v / 0x400) as CodeUnit, (0xDC00 + v % 0x400) as CodeUnit]
  }

  /** The JavaScript string with the characters of `s`. */
  function Units(s: string): (r: JsString)
    ensures |r| >= |s|
    ensures (forall i :: 0 <= i < |s| ==> s[i] as int < 0x1_0000) ==> |r| == |s|
  {
    if |s| == 0 then [] else Encode(s[0]) + Units(s[1..])
  }

  /** The string literals of the page. */
  const OpenBracket: JsString := Units("[")
  const CloseBracket: JsString := Units("]")
  const SchemeSeparator: JsString := Units("://")
  const ArraySuffix: JsString := Units("-array")
  const SchemePrefix: JsString := Units("x-canvas-")

  /** `toLowerCase` on one code unit: ASCII capitals become small letters. */
  function LowerUnit(u: CodeUnit): CodeUnit
  {
    if 0x41 <= u <= 0x5A then u + 0x20 else u
  }

  /** `toLowerCase`, code unit by code unit. */
  function LowerUnits(s: JsString): (r: JsString)
    ensures |r| == |s|
    ensures forall i :: 0 <= i < |s| ==> r[i] == LowerUnit(s[i])
  {
    seq(|s|, i requires 0 <= i < |s| => LowerUnit(s[i]))
  }

  function Clamp(x: int, lo: int, hi: int): (r: int)
    requires lo <= hi
    ensures lo <= r <= hi
    ensures lo <= x <= hi ==> r == x
  {
    if x < lo then lo else if x > hi then hi else x
  }

  /** `s.indexOf(pat, from)`: the first occurrence at or after the clamped
      position, or -1. */
  function IndexOf(s: JsString, pat: JsString, from: int): (r: int)
    ensures r == -1 || (Clamp(from, 0, |s|) <= r && OccursAt(s, pat, r))
    ensures r >= 0 ==> forall j :: Clamp(from, 0, |s|) <= j < r ==> !OccursAt(s, pat, j)
    ensures r == -1 ==> forall j :: Clamp(from, 0, |s|) <= j ==> !OccursAt(s, pat, j)
  {
    match IndexFrom(s, pat, Clamp(from, 0, |s|))
    case Some(i) => i
    case None => -1
  }

  /** The last occurrence of `pat` in `s` starting at or before `k`, or -1. */
  function LastFrom(s: JsString, pat: JsString, k: int): (r: int)
    ensures r == -1 || (0 <= r <= k && OccursAt(s, pat, r))
    ensures forall j :: r < j <= k ==> !OccursAt(s, pat, j)
    decreases k + 1
  {
    if k < 0 then -1
    else if OccursAt(s, pat, k) then k
    else LastFrom(s, pat, k - 1)
  }

  /** `s.lastIndexOf(pat, pos)`: the last occurrence starting at or before
      the clamped position, or -1. */
  function LastIndexOf(s: JsString, pat: JsString, pos: int): (r: int)
    ensures r == -1 || (0 <= r <= Clamp(pos, 0, |s|) && OccursAt(s, pat, r))
    ensures forall j :: r < j <= Clamp(pos, 0, |s|) ==> !OccursAt(s, pat, j)
  {
    LastFrom(s, pat, Clamp(pos, 0, |s|))
  }

  /** The `String.prototype.startsWith` polyfill. */
  function StartsWith(s: JsString, str: JsString): (r: bool)
    ensures r <==> IsPrefix(str, s)
  {
    IndexOf(s, str, 0) == 0
  }

  /** The `String.prototype.endsWith` polyfill as written: it also answers
      true when `str` is exactly one code unit longer than `s`, because the
      start position is then -1 and so is the failed search. */
  function EndsWithAsWritten(s: JsString, str: JsString): (r: bool)
    ensures |str| <= |s| ==> (r <==> IsSuffix(str, s))
    ensures |str| == |s| + 1 ==> r
    ensures |str| > |s| + 1 ==> !r
  {
    var startAt := |s| - |str|;
    LastIndexOf(s, str, startAt) == startAt
  }

  /** The `endsWith` polyfill as intended: a search from a negative start
      position never counts as a match. */
  function EndsWith(s: JsString, str: JsString): (r: bool)
    ensures r <==> IsSuffix(str, s)
  {
    var startAt := |s| - |str|;
    startAt >= 0 && LastIndexOf(s, str, startAt) == startAt
  }

  /** `s.slice(start, end)`, negative positions counting from the end. */
  function Slice(s: JsString, start: int, end: int): (r: JsString)
    ensures |r| <= |s|
  {
    var from := if start < 0 then Clamp(|s| + start, 0, |s|) else Clamp(start, 0, |s|);
    var to := if end < 0 then Clamp(|s| + end, 0, |s|) else Clamp(end, 0, |s|);
    if from >= to then [] else s[from..to]
  }

  /** `s.split(sep)` for a non-empty separator: the pieces between
      occurrences, as many as there are occurrences plus one. */
  function SplitBy(s: JsString, sep: JsString): (r: seq<JsString>)
    requires sep != []
    ensures |r| >= 1
    decreases |s|
  {
    match IndexFrom(s, sep, 0)
    case None => [s]
    case Some(i) => [s[..i]] + SplitBy(s[i + |sep|..], sep)
  }

  // ---------------------------------------------------------------------------
  // The rewrite

  /** The scheme type: the `apiReturntype` data attribute, lowercased, or the
      empty string when it is missing; a bracketed `[T]` becomes `t-array`. */
  function SchemeType(returnType: Option<JsString>): JsString
  {
    var dataType := LowerUnits(returnType.GetOr([]));
    if StartsWith(dataType, OpenBracket) && EndsWith(dataType, CloseBracket) then Slice(dataType, 1, -1) + ArraySuffix
    else dataType
  }

  /** The scheme type as the page computes it, with the polyfill as
      written. */
  function SchemeTypeAsWritten(returnType: Option<JsString>): JsString
  {
    var dataType := LowerUnits(returnType.GetOr([]));
    if StartsWith(dataType, OpenBracket) && EndsWithAsWritten(dataType, CloseBracket) then Slice(dataType, 1, -1) + ArraySuffix
    else dataType
  }

  function SchemeName(returnType: Option<JsString>): JsString
  {
    SchemePrefix + SchemeType(returnType)
  }

  /** Split the endpoint at `://`, replace the first piece by the scheme name
      and join the pieces back together. */
  function RewriteEndpoint(endpoint: JsString, scheme: JsString): JsString
  {
    var pieces := SplitBy(endpoint, SchemeSeparator);
    Join([scheme] + pieces[1..], SchemeSeparator)
  }

  /** An `<a>` element: its `href` and its two data attributes. */
  datatype Link = Link(href: JsString, apiEndpoint: Option<JsString>, apiReturnType: Option<JsString>)

  /** The body of the loop in `rewriteLinks` for one link. */
  function RewriteLink(link: Link): (r: Link)
    ensures r.apiEndpoint == link.apiEndpoint && r.apiReturnType == link.apiReturnType
    ensures link.apiEndpoint.None? ==> r == link
  {
    match link.apiEndpoint
    case None => link
    case Some(endpoint) => link.(href := RewriteEndpoint(endpoint, SchemeName(link.apiReturnType)))
  }

  /** `rewriteLinks`: every link of the document, in document order. */
  function RewriteLinks(links: seq<Link>): (r: seq<Link>)
    ensures |r| == |links|
    ensures forall i :: 0 <= i < |links| ==> r[i] == RewriteLink(links[i])
  {
    seq(|links|, i requires 0 <= i < |links| => RewriteLink(links[i]))
  }
}

=== FILE: api_links_properties.dfy ===
/** What the link rewrite guarantees. */
module ApiLinkProperties {
  import opened Options
  import opened Text
  import opened ApiLinks

  // ---------------------------------------------------------------------------
  // The literals

  /** The separator `://` starts with a colon. */
  const Colon: CodeUnit := 0x3A

  lemma LiteralUnits()
    ensures OpenBracket == [0x5B] && CloseBracket == [0x5D]
    ensures |SchemeSeparator| == 3 && SchemeSeparator[0] == Colon
  {
  }

  /** Lowercasing code units agrees with lowercasing characters, surrogate
      pairs included. */
  lemma {:induction false} LowerUnitsOfUnits(s: string)
    ensures LowerUnits(Units(s)) == Units(Lower(s))
  {
    if |s| > 0 {
      LowerUnitsOfUnits(s[1..]);
      assert Lower(s)[1..] == Lower(s[1..]);
      LowerUnitsConcat(Encode(s[0]), Units(s[1..]));
      LowerOfEncode(s[0]);
    }
  }

  lemma LowerUnitsConcat(a: JsString, b: JsString)
    ensures LowerUnits(a + b) == LowerUnits(a) + LowerUnits(b)
  {
  }

  lemma LowerOfEncode(c: char)
    ensures LowerUnits(Encode(c)) == Encode(LowerChar(c))
  {
  }

  // ---------------------------------------------------------------------------
  // The polyfills

  /** The `endsWith` polyfill as written answers true for a string one
      code unit longer than the receiver: `"".endsWith("]")`. */
  lemma EndsWithAsWrittenOneTooLong(u: CodeUnit)
    ensures EndsWithAsWritten([], [u])
    ensures !IsSuffix([u], [])
  {
  }

  /** For a one-character argument, `"".endsWith(c)` as written is true
      exactly when `c` is one code unit long; a character outside the Basic
      Multilingual Plane is a surrogate pair and gives false. */
  lemma EmptyEndsWithChar(c: char)
    ensures EndsWithAsWritten([], Units([c])) <==> c as int < 0x1_0000
  {
    assert Units([c]) == Encode(c) + Units([]);
  }

  /** The discrepancy never reaches the rewrite: a bracketed type must also
      start with `[`, which the empty string does not. */
  lemma SchemeTypeAsWrittenAgrees(returnType: Option<JsString>)
    ensures SchemeTypeAsWritten(returnType) == SchemeType(returnType)
  {
    var dataType := LowerUnits(returnType.GetOr([]));
    if |dataType| == 0 {
      LiteralUnits();
      assert !StartsWith(dataType, OpenBracket);
    }
  }

  // ---------------------------------------------------------------------------
  // The scheme type

  /** A type `[T]` gives the scheme type `t-array`, `t` being `T`
      lowercased. */
  lemma BracketedSchemeType(t: JsString)
    ensures SchemeType(Some(OpenBracket + t + CloseBracket)) == LowerUnits(t) + ArraySuffix
  {
    LiteralUnits();
    var dataType := LowerUnits(OpenBracket + t + CloseBracket);
    assert dataType == OpenBracket + LowerUnits(t) + CloseBracket by {
      assert forall i :: 0 <= i < |dataType| ==> dataType[i] == (OpenBracket + LowerUnits(t) + CloseBracket)[i];
    }
    assert IsPrefix(OpenBracket, dataType);
    assert IsSuffix(CloseBracket, dataType);
    assert Slice(dataType, 1, -1) == dataType[1..|dataType| - 1];
    assert dataType[1..|dataType| - 1] == LowerUnits(t);
  }

  /** Any other type is only lowercased, and a missing one is empty. */
  lemma UnbracketedSchemeType(returnType: Option<JsString>)
    requires var d := LowerUnits(returnType.GetOr([])); !(IsPrefix(OpenBracket, d) && IsSuffix(CloseBracket, d))
    ensures SchemeType(returnType) == LowerUnits(returnType.GetOr([]))
    ensures returnType.None? ==> SchemeName(returnType) == SchemePrefix
  {
  }

  /** The scheme type of a bracketed attribute keeps exactly the code units
      between the brackets (`[` is 0x5B and `]` is 0x5D). */
  lemma SchemeTypeCases(returnType: Option<JsString>)
    ensures var d := LowerUnits(returnType.GetOr([]));
            SchemeType(returnType) == if |d| >= 2 && d[0] == 0x5B && d[|d| - 1] == 0x5D then d[1..|d| - 1] + ArraySuffix else d
  {
    var d := LowerUnits(returnType.GetOr([]));
    BracketTest(d);
    if |d| >= 2 {
      SliceInner(d);
    }
  }

  /** The two polyfill calls of the rewrite test for brackets at both ends
      of a string of at least two code units. */
  lemma BracketTest(d: JsString)
    ensures StartsWith(d, OpenBracket) && EndsWith(d, CloseBracket) <==> |d| >= 2 && d[0] == 0x5B && d[|d| - 1] == 0x5D
  {
    LiteralUnits();
    PrefixOfOne(0x5B, d);
    SuffixOfOne(0x5D, d);
  }

  lemma PrefixOfOne(u: CodeUnit, d: JsString)
    ensures IsPrefix([u], d) <==> |d| >= 1 && d[0] == u
  {
    if |d| >= 1 {
      assert d[..1] == [d[0]];
    }
  }

  lemma SuffixOfOne(u: CodeUnit, d: JsString)
    ensures IsSuffix([u], d) <==> |d| >= 1 && d[|d| - 1] == u
  {
    if |d| >= 1 {
      assert d[|d| - 1..] == [d[|d| - 1]];
    }
  }

  lemma SliceInner(d: JsString)
    requires |d| >= 2
    ensures Slice(d, 1, -1) == d[1..|d| - 1]
  {
  }

  // ---------------------------------------------------------------------------
  // Splitting and joining

  /** `split` followed by `join` with the same separator gives back the
      string. */
  lemma {:induction false} SplitByJoin(s: JsString, sep: JsString)
    requires sep != []
    ensures Join(SplitBy(s, sep), sep) == s
    decreases |s|
  {
    SplitByHead(s, sep);
    match IndexFrom(s, sep, 0)
    case None =>
    case Some(i) =>
      var rest := s[i + |sep|..];
      SplitByJoin(rest, sep);
      JoinCons(s[..i], SplitBy(rest, sep), sep);
      SplitAround(s, sep, i);
  }

  /** The first piece of a split is the text before the first separator. */
  lemma SplitByHead(s: JsString, sep: JsString)
    requires sep != []
    ensures match IndexFrom(s, sep, 0)
            case Some(i) => SplitBy(s, sep) == [s[..i]] + SplitBy(s[i + |sep|..], sep)
            case None => SplitBy(s, sep) == [s]
  {
  }

  lemma SplitAround(s: JsString, sep: JsString, i: nat)
    requires OccursAt(s, sep, i)
    ensures s == s[..i] + sep + s[i + |sep|..]
  {
    assert s[i..i + |sep|] == sep;
    assert s == s[..i] + s[i..i + |sep|] + s[i + |sep|..];
  }

  /** The endpoint keeps everything from its first `://` on, and only the
      part before it becomes the scheme name; an endpoint without `://` is
      replaced by the scheme name alone. */
  lemma RewriteEndpointKeepsRest(endpoint: JsString, scheme: JsString)
    ensures match IndexFrom(endpoint, SchemeSeparator, 0)
            case Some(i) => RewriteEndpoint(endpoint, scheme) == scheme + endpoint[i..]
            case None => RewriteEndpoint(endpoint, scheme) == scheme
  {
    LiteralUnits();
    ReplaceHead(endpoint, SchemeSeparator, scheme);
  }

  /** Replacing the first piece of a split and joining again replaces the
      text before the first separator. */
  lemma ReplaceHead(s: JsString, sep: JsString, head: JsString)
    requires sep != []
    ensures match IndexFrom(s, sep, 0)
            case Some(i) => Join([head] + SplitBy(s, sep)[1..], sep) == head + s[i..]
            case None => Join([head] + SplitBy(s, sep)[1..], sep) == head
  {
    SplitByTail(s, sep);
    match IndexFrom(s, sep, 0)
    case None =>
    case Some(i) =>
      JoinAfterHead(head, s[i + |sep|..], sep);
      SuffixAtSeparator(s, sep, i);
      ConcatAssoc(head, sep, s[i + |sep|..]);
  }

  /** The pieces after the first are the split of what follows the first
      separator. */
  lemma SplitByTail(s: JsString, sep: JsString)
    requires sep != []
    ensures match IndexFrom(s, sep, 0)
            case Some(i) => SplitBy(s, sep)[1..] == SplitBy(s[i + |sep|..], sep)
            case None => SplitBy(s, sep)[1..] == []
  {
  }

  lemma JoinAfterHead(head: JsString, rest: JsString, sep: JsString)
    requires sep != []
    ensures Join([head] + SplitBy(rest, sep), sep) == head + sep + rest
  {
    JoinCons(head, SplitBy(rest, sep), sep);
    SplitByJoin(rest, sep);
  }

  lemma ConcatAssoc(a: JsString, b: JsString, c: JsString)
    ensures a + b + c == a + (b + c)
  {
  }

  lemma SuffixAtSeparator(s: JsString, sep: JsString, i: nat)
    requires OccursAt(s, sep, i)
    ensures s[i..] == sep + s[i + |sep|..]
  {
    assert s[i..i + |sep|] == sep;
  }

  /** An endpoint `<scheme>://<rest>` becomes `x-canvas-<type>://<rest>`
      whatever `<rest>` holds, further `://` included. */
  lemma RewriteLinkScheme(scheme: JsString, rest: JsString, returnType: Option<JsString>, href: JsString)
    requires Colon !in scheme
    ensures RewriteLink(Link(href, Some(scheme + SchemeSeparator + rest), returnType)).href == SchemeName(returnType) + SchemeSeparator + rest
  {
    var endpoint := scheme + SchemeSeparator + rest;
    LiteralUnits();
    FirstSeparatorAfter(scheme, SchemeSeparator, rest);
    RewriteEndpointKeepsRest(endpoint, SchemeName(returnType));
    DropFront(scheme, SchemeSeparator + rest);
    ConcatAssoc(SchemeName(returnType), SchemeSeparator, rest);
  }

  /** A separator whose first character does not occur in `front` is first
      found right after `front`. */
  lemma FirstSeparatorAfter(front: JsString, sep: JsString, rest: JsString)
    requires sep != [] && sep[0] !in front
    ensures IndexFrom(front + sep + rest, sep, 0) == Some(|front|)
  {
    var s := front + sep + rest;
    forall j | 0 <= j < |front| ensures !OccursAt(s, sep, j) {
      assert s[j] == front[j];
      OccursAtHead(s, sep, j);
    }
    assert OccursAt(s, sep, |front|) by {
      assert s[|front|..|front| + |sep|] == sep;
    }
    FirstOccurrence(s, sep, |front|);
  }

  lemma DropFront(a: JsString, b: JsString)
    ensures (a + b)[|a|..] == b
  {
  }

  lemma OccursAtHead(s: JsString, pat: JsString, j: nat)
    requires |pat| > 0 && j < |s|
    ensures OccursAt(s, pat, j) ==> s[j] == pat[0]
  {
    if j + |pat| <= |s| {
      assert s[j..j + |pat|][0] == s[j];
    }
  }

  lemma FirstOccurrence(s: JsString, pat: JsString, k: nat)
    requires OccursAt(s, pat, k)
    requires forall j :: 0 <= j < k ==> !OccursAt(s, pat, j)
    ensures IndexFrom(s, pat, 0) == Some(k)
  {
  }

  /** Rewriting a link twice is rewriting it once: the new `href` depends
      only on the data attributes, which the rewrite keeps. */
  lemma RewriteLinkIdempotent(link: Link)
    ensures RewriteLink(RewriteLink(link)) == RewriteLink(link)
  {
  }

  /** A rewritten page is a fixed point of the rewrite. */
  lemma RewriteLinksIdempotent(links: seq<Link>)
    ensures RewriteLinks(RewriteLinks(links)) == RewriteLinks(links)
  {
    forall i | 0 <= i < |links| {
      RewriteLinkIdempotent(links[i]);
    }
  }
}

=== FILE: build_icons.dfy ===
/** The pure parts of the icon build script (scripts/build-icons.js): icon
    names, download slugs, asset names, the sorted icon set, and the two
    generated name lists (a Swift `enum` case list and a Flow union type),
    each folded into lines of about 100 characters.

    Downloading, converting and writing files are not part of this model;
    the script's plan is modelled as the list of assets it produces. */
module BuildIcons {
  import opened Text

  // ---------------------------------------------------------------------------
  // Names

  /** The index of the first word character at or after `from`, or `|s|`. */
  function NextWordChar(s: string, from: nat): (k: nat)
    requires from <= |s|
    ensures from <= k <= |s|
    ensures forall j :: from <= j < k ==> !IsWordChar(s[j])
    ensures k < |s| ==> IsWordChar(s[k])
    decreases |s| - from
  {
    if from == |s| || IsWordChar(s[from]) then from else NextWordChar(s, from + 1)
  }

  /** `s.replace(/\W+(\w)/g, (_, c) => c.toUpperCase())`: every run of
      non-word characters that is followed by a word character is removed
      and that character is uppercased; a run at the very end stays. */
  function Camel(s: string): (r: string)
    ensures |r| <= |s|
    ensures forall i :: 0 <= i < |r| - 1 && !IsWordChar(r[i]) ==> !IsWordChar(r[i + 1])
    decreases |s|
  {
    if |s| == 0 then ""
    else if IsWordChar(s[0]) then [s[0]] + Camel(s[1..])
    else
      var k := NextWordChar(s, 0);
      if k == |s| then s else [UpperChar(s[k])] + Camel(s[k + 1..])
  }

  /** A word with its first character uppercased (`toUpperCase` on the
      captured character). */
  function Capitalize(w: string): (r: string)
    requires w != []
    ensures |r| == |w| && r[1..] == w[1..]
  {
    [UpperChar(w[0])] + w[1..]
  }

  // ---------------------------------------------------------------------------
  // Icon types, slugs and asset names

  datatype IconType = Line | Solid

  /** The raw value of `InstIconType`, also the directory of the source
      SVG and the suffix of the asset name. */
  function TypeRaw(t: IconType): string
  {
    match t
    case Line => "Line"
    case Solid => "Solid"
  }

  /** The type argument of the generated JavaScript `icon` function. */
  function JsTypeName(t: IconType): string
  {
    match t
    case Line => "line"
    case Solid => "solid"
  }

  type Overrides = map<string, map<IconType, string>>

  /** The per-type slug overrides of the script. */
  const IconOverrides: Overrides := map["star" := map[Line := "star-light"]]

  /** `(overrides[icon] || {})[type] || icon`: the override for this icon
      and type when there is a non-empty one, otherwise the icon itself. */
  function Slug(overrides: Overrides, icon: string, t: IconType): (r: string)
    ensures r == icon || (icon in overrides && t in overrides[icon] && r == overrides[icon][t])
    ensures r == [] ==> icon == []
    ensures icon in overrides && t in overrides[icon] && overrides[icon][t] != [] ==> r == overrides[icon][t]
  {
    if icon in overrides && t in overrides[icon] && overrides[icon][t] != [] then overrides[icon][t]
    else icon
  }

  /** The name of the image set (`${name}${type}`). */
  function AssetName(name: string, t: IconType): string
  {
    name + TypeRaw(t)
  }

  /** An icon name matches `/right|left/i`. */
  function HasLanguageDirection(name: string): (r: bool)
    ensures r <==> (exists i :: OccursAt(Lower(name), "right", i)) || (exists i :: OccursAt(Lower(name), "left", i))
  {
    Contains(Lower(name), "right") || Contains(Lower(name), "left")
  }

  /** What one pass of the download loop produces for an icon and a type. */
  datatype Asset = Asset(name: string, iconType: IconType, slug: string, languageDirection: bool)

  function MakeAsset(overrides: Overrides, icon: string, t: IconType): (r: Asset)
    ensures r.name == Camel(icon) && r.iconType == t
    ensures r.slug == Slug(overrides, icon, t)
    ensures r.languageDirection <==> HasLanguageDirection(r.name)
  {
    var name := Camel(icon);
    Asset(name, t, Slug(overrides, icon, t), HasLanguageDirection(name))
  }

  /** The download loop: for each listed icon, its Line asset, then its
      Solid asset. */
  function Assets(overrides: Overrides, icons: seq<string>): (r: seq<Asset>)
    ensures |r| == 2 * |icons|
    ensures forall k :: 0 <= k < |r| ==> r[k] == MakeAsset(overrides, icons[k / 2], if k % 2 == 0 then Line else Solid)
  {
    seq(2 * |icons|, k requires 0 <= k < 2 * |icons| => MakeAsset(overrides, icons[k / 2], if k % 2 == 0 then Line else Solid))
  }

  // ---------------------------------------------------------------------------
  // The icon set

  /** JavaScript's default `sort` order on strings: lexicographic on
      character codes, a proper prefix first. */
  predicate Less(a: string, b: string)
    decreases |a|
  {
    if |a| == 0 then |b| > 0
    else if |b| == 0 then false
    else if a[0] != b[0] then a[0] < b[0]
    else Less(a[1..], b[1..])
  }

  lemma {:induction false} LessIrreflexive(a: string)
    ensures !Less(a, a)
  {
    if |a| > 0 {
      LessIrreflexive(a[1..]);
    }
  }

  lemma {:induction false} LessTransitive(a: string, b: string, c: string)
    requires Less(a, b) && Less(b, c)
    ensures Less(a, c)
    decreases |a|
  {
    if |a| > 0 && a[0] == b[0] && b[0] == c[0] {
      LessTransitive(a[1..], b[1..], c[1..]);
    }
  }

  lemma {:induction false} LessTotal(a: string, b: string)
    requires a != b
    ensures Less(a, b) || Less(b, a)
    decreases |a|
  {
    if |a| > 0 && |b| > 0 && a[0] == b[0] {
      assert a == [a[0]] + a[1..] && b == [b[0]] + b[1..];
      LessTotal(a[1..], b[1..]);
    }
  }

  predicate StrictlySorted(xs: seq<string>)
  {
    forall i, j :: 0 <= i < j < |xs| ==> Less(xs[i], xs[j])
  }

  /** Inserts `x` into a strictly sorted list unless it is already there. */
  function Insert(xs: seq<string>, x: string): (r: seq<string>)
    requires StrictlySorted(xs)
    ensures StrictlySorted(r)
    ensures forall y :: y in r <==> y in xs || y == x
  {
    if |xs| == 0 then [x]
    else if x == xs[0] then xs
    else if Less(x, xs[0]) then
      assert forall j :: 0 <= j < |xs| ==> Less(x, xs[j]) by {
        forall j | 0 < j < |xs| {
          LessTransitive(x, xs[0], xs[j]);
        }
      }
      [x] + xs
    else
      LessTotal(x, xs[0]);
      var rest := Insert(xs[1..], x);
      assert forall j :: 0 <= j < |rest| ==> Less(xs[0], rest[j]) by {
        forall j | 0 <= j < |rest| ensures Less(xs[0], rest[j]) {
          if rest[j] != x {
            assert rest[j] in rest;
            assert rest[j] in xs[1..];
            var k :| 0 <= k < |xs[1..]| && xs[1..][k] == rest[j];
            assert xs[k + 1] == rest[j];
          }
        }
      }
      [xs[0]] + rest
  }

  /** `Array.from(icons).sort()` for the set built by `icons.add`: the
      distinct names, in sort order. */
  function SortedSet(names: seq<string>): (r: seq<string>)
    ensures StrictlySorted(r)
    ensures forall y :: y in r <==> y in names
    decreases |names|
  {
    if |names| == 0 then []
    else Insert(SortedSet(names[..|names| - 1]), names[|names| - 1])
  }

  /** The names the generated files list. */
  function IconNames(icons: seq<string>): (r: seq<string>)
    ensures StrictlySorted(r)
    ensures forall y :: y in r <==> exists i :: 0 <= i < |icons| && Camel(icons[i]) == y
  {
    var names := seq(|icons|, i requires 0 <= i < |icons| => Camel(icons[i]));
    assert forall i :: 0 <= i < |icons| ==> names[i] == Camel(icons[i]);
    SortedSet(names)
  }

  // ---------------------------------------------------------------------------
  // Folding a list into lines

  /** Where a fold breaks lines: the text put before an item that starts a
      new line, and how many characters the separator before an item
      counts for. */
  datatype Style = Style(indent: string, sepWidth: nat)

  const Limit := 100

  /** One step of a fold: the counter after `item`, and whether `item`
      starts a new line because the counter would exceed the limit. */
  function Step(style: Style, len: int, item: string): (r: (bool, int))
    ensures r.0 <==> len + style.sepWidth + |item| > Limit
    ensures r.0 ==> r.1 == |style.indent| + |item|
    ensures !r.0 ==> r.1 <= Limit
  {
    var next := len + style.sepWidth + |item|;
    if next > Limit then (true, |style.indent| + |item|) else (false, next)
  }

  /** The `map` callback of a fold, over a whole list: every item, with the
      indent in front of those that start a new line. */
  function Fold(style: Style, len: int, items: seq<string>): (r: seq<string>)
    ensures |r| == |items|
    ensures forall i :: 0 <= i < |items| ==> r[i] == items[i] || r[i] == style.indent + items[i]
    decreases |items|
  {
    if |items| == 0 then []
    else
      var (wrap, next) := Step(style, len, items[0]);
      [if wrap then style.indent + items[0] else items[0]] + Fold(style, next, items[1..])
  }

  /** The counter after a fold over `items`. */
  function Counter(style: Style, len: int, items: seq<string>): int
    decreases |items|
  {
    if |items| == 0 then len else Counter(style, Step(style, len, items[0]).1, items[1..])
  }

  /** A folded line with the inserted indent removed again. */
  function Unindent(indent: string, line: string): (r: string)
    ensures IsPrefix(indent, line) ==> line == indent + r
    ensures !IsPrefix(indent, line) ==> r == line
  {
    if IsPrefix(indent, line) then line[|indent|..] else line
  }

  // ---------------------------------------------------------------------------
  // The generated Swift enum

  /** `import` is a Swift keyword and is written in backticks. */
  function SwiftCaseName(name: string): string
  {
    if name == "import" then "`" + name + "`" else name
  }

  /** The raw value Swift gives a case without an explicit one: its name,
      without backticks. */
  function SwiftRawValue(caseName: string): (r: string)
    ensures |r| <= |caseName|
  {
    if |caseName| >= 2 && caseName[0] == '`' && caseName[|caseName| - 1] == '`' then caseName[1..|caseName| - 1]
    else caseName
  }

  /** `UIImage.icon(_:_:)`: the name looked up in the asset catalog. */
  function SwiftLookup(caseName: string, t: IconType): string
  {
    SwiftRawValue(caseName) + TypeRaw(t)
  }

  /** Eleven spaces after a line break line up an item under the first
      case name, which follows the eight-space indent and `case`. */
  const SwiftStyle := Style("\n           ", 1)

  /** The counter starts at the width of `        case`. */
  const SwiftStart := 12

  function SwiftItems(names: seq<string>): (r: seq<string>)
    ensures |r| == |names|
    ensures forall i :: 0 <= i < |names| ==> r[i] == " " + SwiftCaseName(names[i])
  {
    seq(|names|, i requires 0 <= i < |names| => " " + SwiftCaseName(names[i]))
  }

  /** The case list of `InstIconName`. */
  function SwiftCases(names: seq<string>): string
  {
    "case" + Join(Fold(SwiftStyle, SwiftStart, SwiftItems(names)), ",")
  }

  // ---------------------------------------------------------------------------
  // The generated Flow union type

  const JsStyle := Style("\n ", 2)

  const JsStart := 1

  function JsItems(names: seq<string>): (r: seq<string>)
    ensures |r| == |names|
    ensures forall i :: 0 <= i < |names| ==> r[i] == " '" + names[i] + "'"
  {
    seq(|names|, i requires 0 <= i < |names| => " '" + names[i] + "'")
  }

  /** The members of the `InstIconName` union type. */
  function JsUnion(names: seq<string>): string
  {
    Join(Fold(JsStyle, JsStart, JsItems(names)), " |")
  }

  /** The generated `icon(name, type)`: the name followed by the type with
      its first character uppercased. */
  function JsIcon(name: string, jsType: string): (r: string)
    requires jsType != []
    ensures |r| == |name| + |jsType|
  {
    name + Capitalize(jsType)
  }
}

=== FILE: build_icons_properties.dfy ===
/** What the icon build script guarantees about names and generated lists. */
module BuildIconProperties {
  import opened Text
  import opened BuildIcons

  // ---------------------------------------------------------------------------
  // Name conversion

  predicate AllWord(s: string)
  {
    forall i :: 0 <= i < |s| ==> IsWordChar(s[i])
  }

  predicate NoWord(s: string)
  {
    forall i :: 0 <= i < |s| ==> !IsWordChar(s[i])
  }

  /** Word characters pass through unchanged. */
  lemma {:induction false} CamelOfWord(w: string, rest: string)
    requires AllWord(w)
    ensures Camel(w + rest) == w + Camel(rest)
  {
    if |w| > 0 {
      assert (w + rest)[1..] == w[1..] + rest;
      CamelOfWord(w[1..], rest);
    } else {
      assert w + rest == rest;
    }
  }

  /** A separator run before a word is dropped and the word capitalised. */
  lemma CamelOfSeparatedWord(sep: string, w: string, rest: string)
    requires sep != [] && NoWord(sep)
    requires w != [] && AllWord(w)
    ensures Camel(sep + w + rest) == Capitalize(w) + Camel(rest)
  {
    var s := sep + w + rest;
    assert s[|sep|] == w[0];
    assert NextWordChar(s, 0) == |sep| by {
      NextWordCharAt(s, 0, |sep|);
    }
    assert s[|sep| + 1..] == w[1..] + rest;
    CamelOfWord(w[1..], rest);
  }

  lemma {:induction false} NextWordCharAt(s: string, from: nat, k: nat)
    requires from <= k < |s| && IsWordChar(s[k])
    requires forall j :: from <= j < k ==> !IsWordChar(s[j])
    ensures NextWordChar(s, from) == k
    decreases k - from
  {
    if from < k {
      NextWordCharAt(s, from + 1, k);
    }
  }

  /** The segments, each behind a `-`. */
  function Dashed(segs: seq<string>): string
  {
    Concat(seq(|segs|, i requires 0 <= i < |segs| => "-" + segs[i]))
  }

  /** The segments, each capitalised. */
  function Capitalized(segs: seq<string>): string
    requires forall i :: 0 <= i < |segs| ==> segs[i] != []
  {
    Concat(seq(|segs|, i requires 0 <= i < |segs| => Capitalize(segs[i])))
  }

  lemma {:induction false} CamelOfDashed(segs: seq<string>)
    requires forall i :: 0 <= i < |segs| ==> segs[i] != [] && AllWord(segs[i])
    ensures Camel(Dashed(segs)) == Capitalized(segs)
  {
    if |segs| > 0 {
      var dashes := seq(|segs|, i requires 0 <= i < |segs| => "-" + segs[i]);
      var caps := seq(|segs|, i requires 0 <= i < |segs| => Capitalize(segs[i]));
      assert dashes[1..] == seq(|segs| - 1, i requires 0 <= i < |segs| - 1 => "-" + segs[1..][i]);
      assert caps[1..] == seq(|segs| - 1, i requires 0 <= i < |segs| - 1 => Capitalize(segs[1..][i]));
      assert Dashed(segs) == "-" + segs[0] + Dashed(segs[1..]);
      assert Capitalized(segs) == Capitalize(segs[0]) + Capitalized(segs[1..]);
      CamelOfSeparatedWord("-", segs[0], Dashed(segs[1..]));
      CamelOfDashed(segs[1..]);
    }
  }

  lemma {:induction false} JoinIsDashed(segs: seq<string>)
    requires |segs| >= 1
    ensures Join(segs, "-") == segs[0] + Dashed(segs[1..])
  {
    if |segs| > 1 {
      var tail := segs[1..];
      JoinIsDashed(tail);
      var dashes := seq(|tail|, i requires 0 <= i < |tail| => "-" + tail[i]);
      assert dashes[1..] == seq(|tail| - 1, i requires 0 <= i < |tail| - 1 => "-" + tail[1..][i]);
      assert Dashed(tail) == "-" + tail[0] + Dashed(tail[1..]);
    } else {
      assert Dashed(segs[1..]) == "";
    }
  }

  /** Kebab case becomes camel case: `arrow-open-left` is `arrowOpenLeft`. */
  lemma CamelOfKebab(segs: seq<string>)
    requires |segs| >= 1
    requires forall i :: 0 <= i < |segs| ==> segs[i] != [] && AllWord(segs[i])
    ensures Camel(Join(segs, "-")) == segs[0] + Capitalized(segs[1..])
  {
    JoinIsDashed(segs);
    CamelOfWord(segs[0], Dashed(segs[1..]));
    CamelOfDashed(segs[1..]);
  }

  /** A name with no separator before a word character is left alone. */
  lemma {:induction false} CamelFixedPoint(s: string)
    requires forall i :: 0 <= i < |s| - 1 && !IsWordChar(s[i]) ==> !IsWordChar(s[i + 1])
    ensures Camel(s) == s
    decreases |s|
  {
    if |s| > 0 {
      if IsWordChar(s[0]) {
        CamelFixedPoint(s[1..]);
        assert s == [s[0]] + s[1..];
      } else {
        forall i | 0 <= i < |s| ensures !IsWordChar(s[i]) {
          NonWordRun(s, i);
        }
      }
    }
  }

  lemma {:induction false} NonWordRun(s: string, i: nat)
    requires forall i :: 0 <= i < |s| - 1 && !IsWordChar(s[i]) ==> !IsWordChar(s[i + 1])
    requires 0 < |s| && !IsWordChar(s[0]) && i < |s|
    ensures !IsWordChar(s[i])
  {
    if i > 0 {
      NonWordRun(s, i - 1);
    }
  }

  /** Converting a converted name changes nothing. */
  lemma CamelIdempotent(s: string)
    ensures Camel(Camel(s)) == Camel(s)
  {
    CamelFixedPoint(Camel(s));
  }

  // ---------------------------------------------------------------------------
  // Slugs and asset names

  /** Of all icons and types, only the Line `star` is downloaded under
      another name, `star-light`. */
  lemma SlugOfIconOverrides(icon: string, t: IconType)
    ensures Slug(IconOverrides, icon, t) == if icon == "star" && t == Line then "star-light" else icon
  {
  }

  /** The Swift lookup names the image set the script created, also for the
      backticked `import`. */
  lemma SwiftLookupMatchesAsset(name: string, t: IconType)
    requires name == [] || name[0] != '`'
    ensures SwiftLookup(SwiftCaseName(name), t) == AssetName(name, t)
  {
    if name == "import" {
      var c := "`" + name + "`";
      assert c[1..|c| - 1] == name;
    }
  }

  /** The JavaScript `icon` names the same image set. */
  lemma JsIconMatchesAsset(name: string, t: IconType)
    ensures JsIcon(name, JsTypeName(t)) == AssetName(name, t)
  {
  }

  /** Every asset the loop creates is listed in both generated files and is
      found by both lookups. */
  lemma AssetsAreListed(overrides: Overrides, icons: seq<string>, k: nat)
    requires k < 2 * |icons|
    requires forall i :: 0 <= i < |icons| ==> Camel(icons[i]) == [] || Camel(icons[i])[0] != '`'
    ensures var a := Assets(overrides, icons)[k];
            && a.name in IconNames(icons)
            && SwiftLookup(SwiftCaseName(a.name), a.iconType) == AssetName(a.name, a.iconType)
            && JsIcon(a.name, JsTypeName(a.iconType)) == AssetName(a.name, a.iconType)
  {
    var a := Assets(overrides, icons)[k];
    assert a.name == Camel(icons[k / 2]);
    SwiftLookupMatchesAsset(a.name, a.iconType);
    JsIconMatchesAsset(a.name, a.iconType);
  }

  /** Both text directions of an arrow: a name ending in `left` or `right`,
      in any case, gets a language direction. */
  lemma DirectionOfSuffix(a: string, b: string)
    requires Lower(b) == "left" || Lower(b) == "right"
    ensures HasLanguageDirection(a + b)
  {
    LowerConcat(a, b);
    assert OccursAt(Lower(a + b), Lower(b), |a|) by {
      assert Lower(a + b)[|a|..|a| + |b|] == Lower(b);
    }
  }

  /** The direction test ignores case. */
  lemma DirectionIgnoresCase(name: string)
    ensures HasLanguageDirection(Lower(name)) == HasLanguageDirection(name)
  {
    LowerIdempotent(name);
  }

  // ---------------------------------------------------------------------------
  // The icon set

  /** A strictly sorted list holds no name twice. */
  lemma SortedDistinct(xs: seq<string>)
    requires StrictlySorted(xs)
    ensures forall i, j :: 0 <= i < j < |xs| ==> xs[i] != xs[j]
  {
    forall i, j | 0 <= i < j < |xs| ensures xs[i] != xs[j] {
      LessIrreflexive(xs[i]);
    }
  }

  /** There is only one strictly sorted list of given names: the list the
      script emits is determined by the set of names alone. */
  lemma {:induction false} SortedUnique(a: seq<string>, b: seq<string>)
    requires StrictlySorted(a) && StrictlySorted(b)
    requires forall y :: y in a <==> y in b
    ensures a == b
  {
    SameMembersSameEmptiness(a, b);
    if |a| == 0 {
    } else {
      assert a[0] in b;
      assert b[0] in a;
      var j :| 0 <= j < |b| && b[j] == a[0];
      var i :| 0 <= i < |a| && a[i] == b[0];
      if a[0] != b[0] {
        assert i > 0 && j > 0;
        LessIrreflexive(a[0]);
        LessTransitive(a[0], b[0], a[0]);
        assert false;
      }
      LessIrreflexive(a[0]);
      forall y ensures y in a[1..] <==> y in b[1..] {
        if y in a[1..] {
          var k :| 0 <= k < |a[1..]| && a[1..][k] == y;
          assert Less(a[0], a[k + 1]);
          assert y in b && y != b[0];
          var m :| 0 <= m < |b| && b[m] == y;
          assert b[1..][m - 1] == y;
        }
        if y in b[1..] {
          var k :| 0 <= k < |b[1..]| && b[1..][k] == y;
          assert Less(b[0], b[k + 1]);
          assert y in a && y != a[0];
          var m :| 0 <= m < |a| && a[m] == y;
          assert a[1..][m - 1] == y;
        }
      }
      SortedUnique(a[1..], b[1..]);
      assert a == [a[0]] + a[1..] && b == [b[0]] + b[1..];
    }
  }

  lemma SameMembersSameEmptiness(a: seq<string>, b: seq<string>)
    requires forall y :: y in a <==> y in b
    ensures |a| == 0 <==> |b| == 0
  {
    if |a| > 0 {
      assert a[0] in b;
    }
    if |b| > 0 {
      assert b[0] in a;
    }
  }

  /** Adding the same names in any order gives the same list. */
  lemma SortedSetOrderIndependent(names: seq<string>, other: seq<string>)
    requires forall y :: y in names <==> y in other
    ensures SortedSet(names) == SortedSet(other)
  {
    SortedUnique(SortedSet(names), SortedSet(other));
  }

  // ---------------------------------------------------------------------------
  // Folding into lines

  /** A fold over two lists is the fold over the first followed by the fold
      over the second, started at the counter the first one left. */
  lemma {:induction false} FoldAppend(style: Style, len: int, a: seq<string>, b: seq<string>)
    ensures Fold(style, len, a + b) == Fold(style, len, a) + Fold(style, Counter(style, len, a), b)
    ensures Counter(style, len, a + b) == Counter(style, Counter(style, len, a), b)
    decreases |a|
  {
    if |a| == 0 {
      assert a + b == b;
    } else {
      assert (a + b)[0] == a[0];
      assert (a + b)[1..] == a[1..] + b;
      FoldAppend(style, Step(style, len, a[0]).1, a[1..], b);
    }
  }

  /** An item starts a new line exactly when it would take the counter past
      the limit, the counter being what the items before it left. */
  lemma FoldBreaksWhenFull(style: Style, len: int, items: seq<string>, i: nat)
    requires style.indent != [] && i < |items|
    ensures Fold(style, len, items)[i] != items[i]
        <==> Counter(style, len, items[..i]) + style.sepWidth + |items[i]| > Limit
  {
    assert items == items[..i] + items[i..];
    FoldAppend(style, len, items[..i], items[i..]);
    assert items[i..][0] == items[i];
    assert style.indent + items[i] != items[i] by {
      assert |style.indent + items[i]| > |items[i]|;
    }
  }

  /** The counter stays within the limit as long as every item fits on a
      line of its own. */
  lemma {:induction false} CounterWithinLimit(style: Style, len: int, items: seq<string>)
    requires len <= Limit
    requires forall i :: 0 <= i < |items| ==> |style.indent| + |items[i]| <= Limit
    ensures Counter(style, len, items) <= Limit
    decreases |items|
  {
    if |items| > 0 {
      CounterWithinLimit(style, Step(style, len, items[0]).1, items[1..]);
    }
  }

  function Unindented(indent: string, lines: seq<string>): (r: seq<string>)
    ensures |r| == |lines|
  {
    seq(|lines|, i requires 0 <= i < |lines| => Unindent(indent, lines[i]))
  }

  /** Removing the inserted indents gives back the items, in order. */
  lemma UnindentFold(style: Style, len: int, items: seq<string>)
    requires forall i :: 0 <= i < |items| ==> !IsPrefix(style.indent, items[i])
    ensures Unindented(style.indent, Fold(style, len, items)) == items
  {
    var r := Fold(style, len, items);
    forall i | 0 <= i < |items| ensures Unindent(style.indent, r[i]) == items[i] {
      if r[i] != items[i] {
        assert (style.indent + items[i])[..|style.indent|] == style.indent;
        assert (style.indent + items[i])[|style.indent|..] == items[i];
      }
    }
  }

  /** Without its line breaks, the Swift case list is the case names joined
      by commas. */
  lemma SwiftCasesUnwrapped(names: seq<string>)
    ensures Unindented(SwiftStyle.indent, Fold(SwiftStyle, SwiftStart, SwiftItems(names))) == SwiftItems(names)
  {
    var items := SwiftItems(names);
    forall i | 0 <= i < |items| ensures !IsPrefix(SwiftStyle.indent, items[i]) {
      assert items[i][0] == ' ';
    }
    UnindentFold(SwiftStyle, SwiftStart, items);
  }

  /** Without its line breaks, the union type is the quoted names joined by
      ` |`. */
  lemma JsUnionUnwrapped(names: seq<string>)
    ensures Unindented(JsStyle.indent, Fold(JsStyle, JsStart, JsItems(names))) == JsItems(names)
  {
    var items := JsItems(names);
    forall i | 0 <= i < |items| ensures !IsPrefix(JsStyle.indent, items[i]) {
      assert items[i][0] == ' ';
    }
    UnindentFold(JsStyle, JsStart, items);
  }
}

=== FILE: context_model.dfy ===
/** Canvas context identifiers (Core/Core/Contexts/ContextModel.swift): a
    context is a (type, id) pair, read from `"course_123"`-style canvas
    context ids or from API and web paths such as `/api/v1/courses/1/...`.

    `ContextType` and `ID.expandTildeID` are not part of this model: they
    enter through an `Environment`, the enum as the partial map from raw
    values to cases that its `init?(rawValue:)` is. */
module ContextModels {
  import opened Options
  import opened Text

  /** What the model needs of the parts of Core it does not include. */
  datatype Environment<T> = Environment(
    /** `ContextType(rawValue:)`, as a partial map. */
    rawValues: map<string, T>,
    /** `ContextType.user`. */
    user: T,
    /** `ID.expandTildeID`. */
    expandTildeID: string -> string)

  datatype ContextModel<T> = ContextModel(contextType: T, id: string)

  /** `init(_:id:)`: the type is stored as given, the id after tilde
      expansion. */
  function Make<T>(env: Environment<T>, contextType: T, id: string): (r: ContextModel<T>)
    ensures r.contextType == contextType
    ensures r.id == env.expandTildeID(id)
  {
    ContextModel(contextType, env.expandTildeID(id))
  }

  /** `currentUser`: the user context with the id `self`. */
  function CurrentUser<T>(env: Environment<T>): (r: ContextModel<T>)
    ensures r.contextType == env.user
    ensures r.id == env.expandTildeID("self")
  {
    Make(env, env.user, "self")
  }

  // ---------------------------------------------------------------------------
  // Splitting

  /** The index of the first `c` in `s`, or `|s|` if there is none. */
  function FirstOf(s: string, c: char): (k: nat)
    ensures k <= |s|
    ensures c !in s[..k]
    ensures k < |s| ==> s[k] == c
  {
    if |s| == 0 then 0
    else if s[0] == c then 0
    else 1 + FirstOf(s[1..], c)
  }

  /** `split(separator:)` with its default of omitting empty pieces: the
      maximal runs of characters other than `c`, in order. */
  function SplitOn(s: string, c: char): (r: seq<string>)
    ensures forall i :: 0 <= i < |r| ==> r[i] != [] && c !in r[i]
    decreases |s|
  {
    var k := FirstOf(s, c);
    var rest := if k < |s| then SplitOn(s[k + 1..], c) else [];
    if k == 0 then rest else [s[..k]] + rest
  }

  /** The characters of `s` other than `c`, in order. */
  function Without(s: string, c: char): string
  {
    if |s| == 0 then [] else (if s[0] == c then [] else [s[0]]) + Without(s[1..], c)
  }

  /** Path segments without the `api` and `v1` segments, wherever they are. */
  function DropApiSegments(segments: seq<string>): (r: seq<string>)
    ensures forall i :: 0 <= i < |r| ==> r[i] != "api" && r[i] != "v1"
    ensures forall x :: x in r <==> x in segments && x != "api" && x != "v1"
  {
    if |segments| == 0 then []
    else
      var keep := if segments[0] != "api" && segments[0] != "v1" then [segments[0]] else [];
      keep + DropApiSegments(segments[1..])
  }

  // ---------------------------------------------------------------------------
  // Trimming

  predicate AllS(s: string)
  {
    forall i :: 0 <= i < |s| ==> s[i] == 's'
  }

  /** `s` without its leading `s` characters. */
  function TrimLeadingS(s: string): (r: string)
    ensures |r| <= |s| && r == s[|s| - |r|..]
    ensures AllS(s[..|s| - |r|])
    ensures r == [] || r[0] != 's'
  {
    if |s| > 0 && s[0] == 's' then
      var r := TrimLeadingS(s[1..]);
      assert s[1..][|s| - 1 - |r|..] == s[|s| - |r|..];
      assert s[..|s| - |r|] == [s[0]] + s[1..][..|s| - 1 - |r|];
      r
    else s
  }

  /** `s` without its trailing `s` characters. */
  function TrimTrailingS(s: string): (r: string)
    ensures |r| <= |s| && r == s[..|r|]
    ensures AllS(s[|r|..])
    ensures r == [] || r[|r| - 1] != 's'
  {
    if |s| > 0 && s[|s| - 1] == 's' then TrimTrailingS(s[..|s| - 1]) else s
  }

  /** `trimmingCharacters(in: CharacterSet(charactersIn: "s"))`. */
  function TrimS(s: string): string
  {
    TrimTrailingS(TrimLeadingS(s))
  }

  /** The raw value a context type part is looked up by: lowercased, then
      stripped of `s` at both ends, so that `Courses` becomes `course`. */
  function TypeKey(part: string): string
  {
    TrimS(Lower(part))
  }

  // ---------------------------------------------------------------------------
  // Parsing

  /** `init?(parts:)`: only the first two parts are read, the first as the
      type and the second as the id. */
  function FromParts<T>(env: Environment<T>, parts: seq<string>): (r: Option<ContextModel<T>>)
    ensures r.Some? <==> |parts| >= 2 && TypeKey(parts[0]) in env.rawValues
    ensures r.Some? ==> r.value.contextType == env.rawValues[TypeKey(parts[0])]
    ensures r.Some? ==> r.value.id == env.expandTildeID(parts[1])
  {
    if |parts| < 2 then None
    else
      var key := TypeKey(parts[0]);
      if key !in env.rawValues then None
      else Some(Make(env, env.rawValues[key], parts[1]))
  }

  /** `init?(canvasContextID:)`, e.g. `course_123`. */
  function FromCanvasContextID<T>(env: Environment<T>, canvasContextID: string): Option<ContextModel<T>>
  {
    FromParts(env, SplitOn(canvasContextID, '_'))
  }

  /** `init?(path:)`, e.g. `/api/v1/courses/1/assignments`. */
  function FromPath<T>(env: Environment<T>, path: string): Option<ContextModel<T>>
  {
    FromParts(env, DropApiSegments(SplitOn(path, '/')))
  }
}

=== FILE: context_model_properties.dfy ===
/** What parsing context identifiers guarantees. */
module ContextModelProperties {
  import opened Options
  import opened Text
  import opened ContextModels

  // ---------------------------------------------------------------------------
  // Splitting

  lemma {:induction false} FirstOfJoin(p: string, q: string, c: char)
    requires c !in p
    requires q == [] || q[0] == c
    ensures FirstOf(p + q, c) == |p|
  {
    if |p| > 0 {
      assert (p + q)[1..] == p[1..] + q;
      FirstOfJoin(p[1..], q, c);
    }
  }

  /** Splitting undoes joining: pieces that are non-empty and free of the
      separator come back exactly, in order. */
  lemma {:induction false} SplitJoinRoundTrip(parts: seq<string>, c: char)
    requires forall i :: 0 <= i < |parts| ==> parts[i] != [] && c !in parts[i]
    ensures SplitOn(Join(parts, [c]), c) == parts
  {
    if |parts| == 1 {
      FirstOfJoin(parts[0], [], c);
      assert parts[0] + [] == parts[0];
      assert parts[0][..|parts[0]|] == parts[0];
    } else if |parts| > 1 {
      var s := Join(parts, [c]);
      var rest := Join(parts[1..], [c]);
      assert s == parts[0] + ([c] + rest);
      FirstOfJoin(parts[0], [c] + rest, c);
      assert s[..|parts[0]|] == parts[0];
      assert s[|parts[0]| + 1..] == rest;
      SplitJoinRoundTrip(parts[1..], c);
    }
  }

  /** Splitting drops the separators and nothing else. */
  lemma {:induction false} SplitKeepsContent(s: string, c: char)
    ensures Concat(SplitOn(s, c)) == Without(s, c)
    decreases |s|
  {
    var k := FirstOf(s, c);
    if k < |s| {
      SplitKeepsContent(s[k + 1..], c);
      WithoutSplit(s, k, c);
      if k > 0 {
        assert ([s[..k]] + SplitOn(s[k + 1..], c))[1..] == SplitOn(s[k + 1..], c);
      }
    } else if k > 0 {
      WithoutFree(s, c);
      assert s[..k] == s;
    }
  }

  lemma {:induction false} WithoutFree(s: string, c: char)
    requires c !in s
    ensures Without(s, c) == s
  {
    if |s| > 0 {
      WithoutFree(s[1..], c);
    }
  }

  lemma {:induction false} WithoutSplit(s: string, k: nat, c: char)
    requires k < |s| && s[k] == c && c !in s[..k]
    ensures Without(s, c) == s[..k] + Without(s[k + 1..], c)
  {
    if k > 0 {
      assert s[0] != c by {
        assert s[..k][0] == s[0];
      }
      assert c !in s[1..][..k - 1] by {
        assert s[1..][..k - 1] == s[1..k];
        assert forall x :: x in s[1..k] ==> x in s[..k];
      }
      assert s[1..][k - 1 + 1..] == s[k + 1..];
      WithoutSplit(s[1..], k - 1, c);
      assert s[..k] == [s[0]] + s[1..][..k - 1];
    }
  }

  /** A leading separator, like the `/` at the start of a path, yields no
      piece. */
  lemma SplitSkipsLeadingSeparator(s: string, c: char)
    ensures SplitOn([c] + s, c) == SplitOn(s, c)
  {
    assert ([c] + s)[1..] == s;
  }

  lemma {:induction false} DropApiSegmentsAppend(a: seq<string>, b: seq<string>)
    ensures DropApiSegments(a + b) == DropApiSegments(a) + DropApiSegments(b)
  {
    if |a| == 0 {
      assert a + b == b;
    } else {
      assert (a + b)[1..] == a[1..] + b;
      DropApiSegmentsAppend(a[1..], b);
    }
  }

  /** An `api` or `v1` segment is dropped wherever it occurs, and the other
      segments keep their order. */
  lemma DropApiSegmentsAnywhere(a: seq<string>, x: string, b: seq<string>)
    requires x == "api" || x == "v1"
    ensures DropApiSegments(a + [x] + b) == DropApiSegments(a + b)
  {
    DropApiSegmentsAppend(a + [x], b);
    DropApiSegmentsAppend(a, [x]);
    DropApiSegmentsAppend(a, b);
  }

  // ---------------------------------------------------------------------------
  // Trimming

  lemma {:induction false} TrimLeadingOfS(a: string, m: string)
    requires AllS(a)
    requires m == [] || m[0] != 's'
    ensures TrimLeadingS(a + m) == m
  {
    if |a| > 0 {
      assert (a + m)[1..] == a[1..] + m;
      TrimLeadingOfS(a[1..], m);
    } else {
      assert a + m == m;
    }
  }

  lemma {:induction false} TrimTrailingOfS(m: string, b: string)
    requires AllS(b)
    requires m == [] || m[|m| - 1] != 's'
    ensures TrimTrailingS(m + b) == m
  {
    if |b| > 0 {
      assert (m + b)[..|m + b| - 1] == m + b[..|b| - 1];
      TrimTrailingOfS(m, b[..|b| - 1]);
    } else {
      assert m + b == m;
    }
  }

  /** Trimming removes exactly the runs of `s` at both ends: whatever is
      between two such runs, and neither starts nor ends with `s`, is what
      remains. */
  lemma TrimSRemovesOuterRuns(a: string, m: string, b: string)
    requires AllS(a) && AllS(b)
    requires m == [] || (m[0] != 's' && m[|m| - 1] != 's')
    ensures TrimS(a + m + b) == m
  {
    if m == [] {
      assert AllS(a + m + b);
      TrimLeadingOfS(a + m + b, []);
      assert a + m + b + [] == a + m + b;
    } else {
      assert a + m + b == a + (m + b);
      TrimLeadingOfS(a, m + b);
      TrimTrailingOfS(m, b);
    }
  }

  // ---------------------------------------------------------------------------
  // Parsing

  /** Parts beyond the second never influence the result. */
  lemma FromPartsIgnoresRest<T>(env: Environment<T>, parts: seq<string>, more: seq<string>)
    requires |parts| >= 2
    ensures FromParts(env, parts + more) == FromParts(env, parts)
  {
    assert (parts + more)[0] == parts[0] && (parts + more)[1] == parts[1];
  }

  /** A canvas context id is the type part and the id part joined by `_`. */
  lemma CanvasContextIDParts<T>(env: Environment<T>, typePart: string, id: string)
    requires typePart != [] && '_' !in typePart
    requires id != [] && '_' !in id
    ensures FromCanvasContextID(env, typePart + "_" + id) == FromParts(env, [typePart, id])
  {
    assert Join([typePart, id], "_") == typePart + "_" + id;
    SplitJoinRoundTrip([typePart, id], '_');
  }

  /** An API path `/api/v1/<type>/<id>/...` names the context its first two
      segments after the API prefix name; later segments are ignored. */
  lemma ApiPathParts<T>(env: Environment<T>, segments: seq<string>)
    requires |segments| >= 2
    requires forall i :: 0 <= i < |segments| ==> segments[i] != [] && '/' !in segments[i]
    requires segments[0] != "api" && segments[0] != "v1"
    requires segments[1] != "api" && segments[1] != "v1"
    ensures FromPath(env, "/api/v1/" + Join(segments, "/")) == FromParts(env, segments[..2])
  {
    var path := "/api/v1/" + Join(segments, "/");
    ApiPathSplit(segments);
    ApiPrefixDropped(segments);
    assert DropApiSegments(SplitOn(path, '/')) == segments[..2] + DropApiSegments(segments[2..]);
    FromPartsIgnoresRest(env, segments[..2], DropApiSegments(segments[2..]));
  }

  lemma ApiPathSplit(segments: seq<string>)
    requires |segments| >= 1
    requires forall i :: 0 <= i < |segments| ==> segments[i] != [] && '/' !in segments[i]
    ensures SplitOn("/api/v1/" + Join(segments, "/"), '/') == ["api", "v1"] + segments
  {
    ApiPathSkipsSlash(segments);
    ApiPrefixPieces(segments);
    SplitJoinRoundTrip(["api", "v1"] + segments, '/');
  }

  lemma ApiPathSkipsSlash(segments: seq<string>)
    requires |segments| >= 1
    ensures SplitOn("/api/v1/" + Join(segments, "/"), '/') == SplitOn(Join(["api", "v1"] + segments, "/"), '/')
  {
    ApiPrefixJoin(segments);
    SplitSkipsLeadingSeparator(Join(["api", "v1"] + segments, "/"), '/');
  }

  lemma ApiPrefixPieces(segments: seq<string>)
    requires forall i :: 0 <= i < |segments| ==> segments[i] != [] && '/' !in segments[i]
    ensures var all := ["api", "v1"] + segments;
            forall i :: 0 <= i < |all| ==> all[i] != [] && '/' !in all[i]
  {
    var all := ["api", "v1"] + segments;
    assert all[0] == "api" && all[1] == "v1";
    assert forall i :: 2 <= i < |all| ==> all[i] == segments[i - 2];
  }

  lemma ApiPrefixJoin(segments: seq<string>)
    requires |segments| >= 1
    ensures "/api/v1/" + Join(segments, "/") == ['/'] + Join(["api", "v1"] + segments, "/")
  {
    JoinTwoFront("api", "v1", segments, "/");
    ApiPrefixText(Join(segments, "/"));
  }

  lemma JoinTwoFront(a: string, b: string, segments: seq<string>, sep: string)
    requires |segments| >= 1
    ensures Join([a, b] + segments, sep) == a + sep + (b + sep + Join(segments, sep))
  {
    JoinCons(b, segments, sep);
    assert [a, b] + segments == [a] + ([b] + segments);
    JoinCons(a, [b] + segments, sep);
  }

  lemma ApiPrefixText(rest: string)
    ensures "/api/v1/" + rest == ['/'] + ("api" + "/" + ("v1" + "/" + rest))
  {
  }

  lemma ApiPrefixDropped(segments: seq<string>)
    requires |segments| >= 2
    requires segments[0] != "api" && segments[0] != "v1"
    requires segments[1] != "api" && segments[1] != "v1"
    ensures DropApiSegments(["api", "v1"] + segments) == segments[..2] + DropApiSegments(segments[2..])
  {
    ApiPrefixOnlyDropped(segments);
    FirstTwoKept(segments);
  }

  lemma ApiPrefixOnlyDropped(segments: seq<string>)
    ensures DropApiSegments(["api", "v1"] + segments) == DropApiSegments(segments)
  {
    DropApiSegmentsAppend(["api", "v1"], segments);
    assert DropApiSegments(["api", "v1"]) == [] by {
      assert DropApiSegments(["api", "v1"][1..]) == [];
    }
  }

  lemma FirstTwoKept(segments: seq<string>)
    requires |segments| >= 2
    requires segments[0] != "api" && segments[0] != "v1"
    requires segments[1] != "api" && segments[1] != "v1"
    ensures DropApiSegments(segments) == segments[..2] + DropApiSegments(segments[2..])
  {
    DropApiSegmentsKeep(segments[1..]);
    DropApiSegmentsKeep(segments);
    assert segments[1..][1..] == segments[2..];
  }

  lemma DropApiSegmentsKeep(segments: seq<string>)
    requires |segments| >= 1 && segments[0] != "api" && segments[0] != "v1"
    ensures DropApiSegments(segments) == [segments[0]] + DropApiSegments(segments[1..])
  {
  }

  /** The type part is read case-insensitively and with a plural `s`
      removed: a word `w` that neither starts nor ends with `s` is the raw
      value looked up for every part that lowercases to `w` or to `w + "s"`
      (`Courses` looks up `course`). */
  lemma TypeKeyOfWord(w: string, part: string)
    requires w != [] && w[0] != 's' && w[|w| - 1] != 's'
    requires Lower(part) == w || Lower(part) == w + "s"
    ensures TypeKey(part) == w
  {
    if Lower(part) == w {
      TrimSOfWord(w);
    } else {
      TrimSOfPlural(w);
    }
  }

  /** Trimming also removes a leading `s`, so a type part that starts with
      `s` is looked up without it. */
  lemma TypeKeyDropsLeadingS(part: string)
    ensures TypeKey(['s'] + part) == TypeKey(part)
  {
    LowerOfLeadingS(part);
    TrimLeadingSCons(Lower(part));
  }

  lemma LowerOfLeadingS(part: string)
    ensures Lower(['s'] + part) == ['s'] + Lower(part)
  {
    LowerConcat(['s'], part);
  }

  lemma TrimLeadingSCons(x: string)
    ensures TrimLeadingS(['s'] + x) == TrimLeadingS(x)
  {
    assert (['s'] + x)[1..] == x;
  }

  /** A lowercase word between an `s` and a plural `s` loses both:
      `sections` is looked up as `ection`, not as `section`. */
  lemma SPluralTypeKey(w: string)
    requires w != [] && w[0] != 's' && w[|w| - 1] != 's'
    requires Lower(w) == w
    ensures TypeKey(['s'] + (w + ['s'])) == w
  {
    TypeKeyDropsLeadingS(w + ['s']);
    LowerOfPlural(w);
    TypeKeyOfWord(w, w + ['s']);
  }

  lemma LowerOfPlural(w: string)
    requires Lower(w) == w
    ensures Lower(w + ['s']) == w + ['s']
  {
    LowerConcat(w, ['s']);
  }

  lemma TrimSOfWord(w: string)
    requires w != [] && w[0] != 's' && w[|w| - 1] != 's'
    ensures TrimS(w) == w
  {
    TrimSRemovesOuterRuns("", w, "");
    assert "" + w + "" == w;
  }

  lemma TrimSOfPlural(w: string)
    requires w != [] && w[0] != 's' && w[|w| - 1] != 's'
    ensures TrimS(w + "s") == w
  {
    TrimSRemovesOuterRuns("", w, "s");
    assert "" + w + "s" == w + "s";
  }
}

=== FILE: erased_view.dfy ===
/** The type-erased SwiftUI view tree used by the test suite
    (TestsFoundation/TestsFoundation/Helpers/ErasedView.swift).

    A SwiftUI value is classified by the `CustomErasable` conformance of its
    type; the children that ViewInspector's introspection would report for it
    are carried inside the value, so erasure is a pure recursive function.
    A Swift type test `x as? V` is equality of type names. */
module ErasedViews {
  import opened Options

  type TypeName = string

  /** An element of the data collection a `ForEach` iterates over. */
  type Datum = int

  /** A SwiftUI value, by the way its type is erased. */
  datatype View =
      /** A value whose type has no `CustomErasable` conformance; `content`
          stands for its stored properties. */
    | Plain(typeName: TypeName, content: string)
      /** A value erased through `init(_:body:)`, e.g. a screen under test. */
    | Bodied(typeName: TypeName, body: View)
      /** A value erased through `init(_:_: SingleViewContent.Type)`, such
          as `_ConditionalContent`; `child` is what
          `SingleViewContent.child` reports, for a conditional the branch
          that is shown. */
    | SingleContent(typeName: TypeName, child: View)
      /** `ModifiedContent`, which erases to its `content`. */
    | Modified(typeName: TypeName, content': View)
      /** `HStack`, `VStack`, `ZStack`, `Form` and `Section`; `children` is
          what `MultipleViewContent.children` reports. */
    | MultipleContent(typeName: TypeName, children: seq<View>)
      /** `ForEach`; `builder` is the graph of its content closure. */
    | ForEachOf(typeName: TypeName, data: seq<Datum>, builder: map<Datum, View>)

  /** The content closure of every `ForEach` is defined on all of its data:
      the Swift closure is total, its graph here must cover the data. */
  predicate WellFormed(v: View)
  {
    match v
    case Plain(_, _) => true
    case Bodied(_, body) => WellFormed(body)
    case SingleContent(_, child) => WellFormed(child)
    case Modified(_, content) => WellFormed(content)
    case MultipleContent(_, children) =>
      forall i :: 0 <= i < |children| ==> WellFormed(children[i])
    case ForEachOf(_, data, builder) =>
      forall i :: 0 <= i < |data| ==> data[i] in builder && WellFormed(builder[data[i]])
  }

  /** The erased tree: an opaque leaf, or a known container with its
      erased children in order. */
  datatype ErasedView =
    | Unknown(view: View)
    | Container(view: View, elements: seq<ErasedView>)

  // ---------------------------------------------------------------------------
  // Generic sequence helpers

  /** Concatenates a sequence of sequences, in order. */
  function Flatten<T>(ss: seq<seq<T>>): (r: seq<T>)
    ensures |ss| == 1 ==> r == ss[0]
  {
    if |ss| == 0 then [] else ss[0] + Flatten(ss[1..])
  }

  lemma {:induction false} FlattenAppend<T>(a: seq<seq<T>>, b: seq<seq<T>>)
    ensures Flatten(a + b) == Flatten(a) + Flatten(b)
  {
    if |a| == 0 {
      assert a + b == b;
    } else {
      assert (a + b)[1..] == a[1..] + b;
      FlattenAppend(a[1..], b);
    }
  }

  /** The union of a sequence of sets. */
  function UnionAll<T>(ss: seq<set<T>>): set<T>
  {
    if |ss| == 0 then {} else ss[0] + UnionAll(ss[1..])
  }

  function FoldLeft<S, T>(f: (S, T) -> S, s: S, xs: seq<T>): S
  {
    if |xs| == 0 then s else FoldLeft(f, f(s, xs[0]), xs[1..])
  }

  lemma {:induction false} FoldLeftAppend<S, T>(f: (S, T) -> S, s: S, a: seq<T>, b: seq<T>)
    ensures FoldLeft(f, s, a + b) == FoldLeft(f, FoldLeft(f, s, a), b)
  {
    if |a| == 0 {
      assert a + b == b;
    } else {
      assert (a + b)[1..] == a[1..] + b;
      FoldLeftAppend(f, f(s, a[0]), a[1..], b);
    }
  }

  // ---------------------------------------------------------------------------
  // Construction

  /** `ErasedView.init(_ view: Any)`: the conformance of the value's type
      decides; a value without one becomes an opaque leaf holding it. */
  function Wrap(v: View): (r: ErasedView)
    requires WellFormed(v)
    ensures r.view == Unwrapped(v)
    ensures r.Unknown? <==> Unwrapped(v).Plain?
    decreases v, 1
  {
    match v
    case Plain(_, _) => Unknown(v)
    case Bodied(_, body) => WithBody(v, body)
    case SingleContent(_, child) => WithSingleChild(child)
    case Modified(_, content) => Wrap(content)
    case MultipleContent(_, children) => WithChildren(v, children)
    case ForEachOf(_, data, builder) =>
      // `ForEach.erased`: element `i` is the erasure of `builder(data[i])`
      Container(v, seq(|data|, i requires 0 <= i < |data| => Wrap(builder[data[i]])))
  }

  /** The value that stands for `v` in its erasure: `v` with every
      transparent single-child wrapper around it peeled off. */
  function Unwrapped(v: View): (r: View)
    ensures !r.SingleContent? && !r.Modified?
  {
    match v
    case SingleContent(_, child) => Unwrapped(child)
    case Modified(_, content) => Unwrapped(content)
    case _ => v
  }

  /** `init(_:body:)`: a container with exactly one element, the erasure of
      the body. */
  function WithBody(view: View, body: View): (r: ErasedView)
    requires WellFormed(body)
    ensures r.Container? && r.view == view
    ensures |r.elements| == 1 && r.elements[0] == Wrap(body)
    decreases body, 2
  {
    Container(view, [Wrap(body)])
  }

  /** `init(_:_: SingleViewContent.Type)`: the wrapper is transparent, the
      result is the erasure of its one child. */
  function WithSingleChild(child: View): (r: ErasedView)
    requires WellFormed(child)
    ensures r == Wrap(child)
    decreases child, 2
  {
    Wrap(child)
  }

  /** `init(_:_: MultipleViewContent.Type)`: a container with one element
      per reported child, in the reported order. */
  function WithChildren(view: View, children: seq<View>): (r: ErasedView)
    requires forall i :: 0 <= i < |children| ==> WellFormed(children[i])
    ensures r.Container? && r.view == view
    ensures |r.elements| == |children|
    ensures forall i :: 0 <= i < |children| ==> r.elements[i] == Wrap(children[i])
    decreases children, 2
  {
    Container(view, seq(|children|, i requires 0 <= i < |children| => Wrap(children[i])))
  }

  // ---------------------------------------------------------------------------
  // Queries

  /** Every node, each parent before its descendants and siblings left to
      right: the order `forEach` visits them in. */
  function Preorder(e: ErasedView): (r: seq<ErasedView>)
    ensures |r| >= 1 && r[0] == e
  {
    match e
    case Unknown(_) => [e]
    case Container(_, elements) =>
      [e] + Flatten(seq(|elements|, i requires 0 <= i < |elements| => Preorder(elements[i])))
  }

  /** `[view].lazy.compactMap { $0 as? V }`. */
  function Matches(v: View, t: TypeName): seq<View>
  {
    if v.typeName == t then [v] else []
  }

  /** `findAll(V.self)`: every held view of type `t` (the lazy sequence of
      `lazilyFindAll`, materialised). */
  function FindAll(e: ErasedView, t: TypeName): (r: seq<View>)
    ensures e.view.typeName == t ==> |r| > 0 && r[0] == e.view
    ensures e.view.typeName != t && e.Unknown? ==> r == []
  {
    match e
    case Unknown(view) => Matches(view, t)
    case Container(view, elements) =>
      Matches(view, t) + Flatten(seq(|elements|, i requires 0 <= i < |elements| => FindAll(elements[i], t)))
  }

  /** `first(V.self)`, searched the way the lazy sequence is consumed: stop
      at the first hit. */
  function First(e: ErasedView, t: TypeName): Option<View>
    decreases e, 1
  {
    if e.view.typeName == t then Some(e.view)
    else if e.Unknown? then None
    else FirstFrom(e, 0, t)
  }

  /** The first hit among the elements of `e` from index `i` on. */
  function FirstFrom(e: ErasedView, i: nat, t: TypeName): Option<View>
    requires e.Container? && i <= |e.elements|
    decreases e, 0, |e.elements| - i
  {
    if i == |e.elements| then None
    else
      match First(e.elements[i], t)
      case Some(v) => Some(v)
      case None => FirstFrom(e, i + 1, t)
  }

  /** `forEach(callback)` with the callback's effect made explicit as a state
      the callback threads through: the node itself first, then each
      element's walk in order. */
  function ForEach<S>(e: ErasedView, callback: (S, ErasedView) -> S, s: S): S
    decreases e, 1
  {
    match e
    case Unknown(_) => callback(s, e)
    case Container(_, _) => ForEachFrom(e, 0, callback, callback(s, e))
  }

  function ForEachFrom<S>(e: ErasedView, i: nat, callback: (S, ErasedView) -> S, s: S): S
    requires e.Container? && i <= |e.elements|
    decreases e, 0, |e.elements| - i
  {
    if i == |e.elements| then s
    else ForEachFrom(e, i + 1, callback, ForEach(e.elements[i], callback, s))
  }

  /** The callback `unknownTypes` passes to `forEach`. */
  function InsertUnknownType(types: set<TypeName>, n: ErasedView): set<TypeName>
  {
    if n.Unknown? then types + {n.view.typeName} else types
  }

  /** `unknownTypes`. */
  function UnknownTypes(e: ErasedView): set<TypeName>
  {
    ForEach(e, InsertUnknownType, {})
  }

  // ---------------------------------------------------------------------------
  // Reference definitions

  /** The views held by a sequence of nodes that have type `t`, in order. */
  function ViewsOfType(ns: seq<ErasedView>, t: TypeName): (r: seq<View>)
    ensures forall i :: 0 <= i < |r| ==> r[i].typeName == t
    ensures |r| <= |ns|
  {
    if |ns| == 0 then [] else Matches(ns[0].view, t) + ViewsOfType(ns[1..], t)
  }

  /** The type names of the opaque leaves among `ns`. */
  function UnknownNames(ns: seq<ErasedView>): set<TypeName>
  {
    if |ns| == 0 then {}
    else (if ns[0].Unknown? then {ns[0].view.typeName} else {}) + UnknownNames(ns[1..])
  }

  /** The type names of the values without a conformance that erasure of `v`
      reaches. */
  function PlainTypes(v: View): set<TypeName>
    requires WellFormed(v)
  {
    match v
    case Plain(t, _) => {t}
    case Bodied(_, body) => PlainTypes(body)
    case SingleContent(_, child) => PlainTypes(child)
    case Modified(_, content) => PlainTypes(content)
    case MultipleContent(_, children) =>
      UnionAll(seq(|children|, i requires 0 <= i < |children| => PlainTypes(children[i])))
    case ForEachOf(_, data, builder) =>
      UnionAll(seq(|data|, i requires 0 <= i < |data| => PlainTypes(builder[data[i]])))
  }

  /** Every node of an erased tree is opaque exactly when its view has no
      conformance, and no node holds a transparent single-child wrapper. */
  predicate Faithful(e: ErasedView)
  {
    && (e.Unknown? <==> e.view.Plain?)
    && !e.view.SingleContent?
    && !e.view.Modified?
    && (e.Container? ==> forall i :: 0 <= i < |e.elements| ==> Faithful(e.elements[i]))
  }
}

=== FILE: erased_view_properties.dfy ===
/** What erasure and the queries over an erased tree guarantee. */
module ErasedViewProperties {
  import opened Options
  import opened ErasedViews

  // ---------------------------------------------------------------------------
  // Construction

  /** Erasure keeps the structure the conformances promise at every node:
      a node is opaque exactly when its value has no conformance, and no node
      stands for a `ModifiedContent` or other single-child wrapper. */
  lemma {:induction false} WrapIsFaithful(v: View)
    requires WellFormed(v)
    ensures Faithful(Wrap(v))
  {
    match v
    case Plain(_, _) =>
    case Bodied(_, body) =>
      WrapIsFaithful(body);
    case SingleContent(_, child) =>
      WrapIsFaithful(child);
    case Modified(_, content) =>
      WrapIsFaithful(content);
    case MultipleContent(_, children) =>
      var r := Wrap(v);
      forall i | 0 <= i < |r.elements|
        ensures Faithful(r.elements[i])
      {
        WrapIsFaithful(children[i]);
      }
    case ForEachOf(_, data, builder) =>
      var r := Wrap(v);
      forall i | 0 <= i < |r.elements|
        ensures Faithful(r.elements[i])
      {
        WrapIsFaithful(builder[data[i]]);
      }
  }

  /** A `ForEach` over N data elements erases to a container of exactly N
      elements, element `i` being the erasure of `builder(data[i])`. */
  lemma ForEachErasure(v: View)
    requires WellFormed(v) && v.ForEachOf?
    ensures Wrap(v).Container? && Wrap(v).view == v
    ensures |Wrap(v).elements| == |v.data|
    ensures forall i :: 0 <= i < |v.data| ==> Wrap(v).elements[i] == Wrap(v.builder[v.data[i]])
  {
  }

  // ---------------------------------------------------------------------------
  // findAll and first

  lemma {:induction false} ViewsOfTypeAppend(a: seq<ErasedView>, b: seq<ErasedView>, t: TypeName)
    ensures ViewsOfType(a + b, t) == ViewsOfType(a, t) + ViewsOfType(b, t)
  {
    if |a| == 0 {
      assert a + b == b;
    } else {
      assert (a + b)[1..] == a[1..] + b;
      ViewsOfTypeAppend(a[1..], b, t);
    }
  }

  lemma {:induction false} ViewsOfTypeFlatten(ss: seq<seq<ErasedView>>, t: TypeName)
    ensures ViewsOfType(Flatten(ss), t)
         == Flatten(seq(|ss|, i requires 0 <= i < |ss| => ViewsOfType(ss[i], t)))
  {
    var m := seq(|ss|, i requires 0 <= i < |ss| => ViewsOfType(ss[i], t));
    if |ss| > 0 {
      ViewsOfTypeAppend(ss[0], Flatten(ss[1..]), t);
      ViewsOfTypeFlatten(ss[1..], t);
      assert m[1..] == seq(|ss[1..]|, i requires 0 <= i < |ss[1..]| => ViewsOfType(ss[1..][i], t));
    }
  }

  /** `findAll` is the pre-order walk filtered by type: a node's own view
      comes before anything found below it, and the elements' results follow
      one another left to right. */
  lemma {:induction false} FindAllIsPreorder(e: ErasedView, t: TypeName)
    ensures FindAll(e, t) == ViewsOfType(Preorder(e), t)
  {
    match e
    case Unknown(view) =>
    case Container(view, elements) =>
      var pre := seq(|elements|, i requires 0 <= i < |elements| => Preorder(elements[i]));
      var found := seq(|elements|, i requires 0 <= i < |elements| => FindAll(elements[i], t));
      assert Preorder(e) == [e] + Flatten(pre);
      ViewsOfTypeAppend([e], Flatten(pre), t);
      ViewsOfTypeFlatten(pre, t);
      forall i | 0 <= i < |elements|
        ensures found[i] == ViewsOfType(pre[i], t)
      {
        FindAllIsPreorder(elements[i], t);
      }
      assert seq(|pre|, i requires 0 <= i < |pre| => ViewsOfType(pre[i], t)) == found;
  }

  /** The first element of a sequence, if any. */
  function Head<T>(s: seq<T>): Option<T>
  {
    if |s| == 0 then None else Some(s[0])
  }

  /** The short-circuiting `first` finds exactly the head of `findAll`, and
      nothing exactly when `findAll` is empty. */
  lemma {:induction false} FirstIsHeadOfFindAll(e: ErasedView, t: TypeName)
    ensures First(e, t) == Head(FindAll(e, t))
    ensures First(e, t).None? <==> FindAll(e, t) == []
    decreases e, 1
  {
    if e.view.typeName != t && e.Container? {
      var found := seq(|e.elements|, i requires 0 <= i < |e.elements| => FindAll(e.elements[i], t));
      FirstFromIsHead(e, 0, t);
      assert found[0..] == found;
    }
  }

  lemma {:induction false} FirstFromIsHead(e: ErasedView, i: nat, t: TypeName)
    requires e.Container? && i <= |e.elements|
    ensures FirstFrom(e, i, t)
         == Head(Flatten(seq(|e.elements|, j requires 0 <= j < |e.elements| => FindAll(e.elements[j], t))[i..]))
    decreases e, 0, |e.elements| - i
  {
    var found := seq(|e.elements|, j requires 0 <= j < |e.elements| => FindAll(e.elements[j], t));
    if i < |e.elements| {
      FirstIsHeadOfFindAll(e.elements[i], t);
      FirstFromIsHead(e, i + 1, t);
      assert found[i..][1..] == found[i + 1..];
    }
  }

  // ---------------------------------------------------------------------------
  // forEach and unknownTypes

  /** `forEach` hands the callback every node exactly once, in pre-order:
      each parent before its children, siblings left to right. */
  lemma {:induction false} ForEachIsPreorderFold<S>(e: ErasedView, callback: (S, ErasedView) -> S, s: S)
    ensures ForEach(e, callback, s) == FoldLeft(callback, s, Preorder(e))
    decreases e, 1
  {
    match e
    case Unknown(_) =>
    case Container(_, elements) =>
      var pre := seq(|elements|, i requires 0 <= i < |elements| => Preorder(elements[i]));
      ForEachFromIsFold(e, 0, callback, callback(s, e));
      assert pre[0..] == pre;
      assert Preorder(e) == [e] + Flatten(pre);
      assert ([e] + Flatten(pre))[1..] == Flatten(pre);
  }

  lemma {:induction false} ForEachFromIsFold<S>(e: ErasedView, i: nat, callback: (S, ErasedView) -> S, s: S)
    requires e.Container? && i <= |e.elements|
    ensures ForEachFrom(e, i, callback, s)
         == FoldLeft(callback, s, Flatten(seq(|e.elements|, j requires 0 <= j < |e.elements| => Preorder(e.elements[j]))[i..]))
    decreases e, 0, |e.elements| - i
  {
    var pre := seq(|e.elements|, j requires 0 <= j < |e.elements| => Preorder(e.elements[j]));
    if i < |e.elements| {
      var s' := ForEach(e.elements[i], callback, s);
      ForEachIsPreorderFold(e.elements[i], callback, s);
      ForEachFromIsFold(e, i + 1, callback, s');
      assert pre[i..][1..] == pre[i + 1..];
      assert Flatten(pre[i..]) == pre[i] + Flatten(pre[i + 1..]);
      FoldLeftAppend(callback, s, pre[i], Flatten(pre[i + 1..]));
    }
  }

  lemma {:induction false} UnknownNamesAppend(a: seq<ErasedView>, b: seq<ErasedView>)
    ensures UnknownNames(a + b) == UnknownNames(a) + UnknownNames(b)
  {
    if |a| == 0 {
      assert a + b == b;
    } else {
      assert (a + b)[1..] == a[1..] + b;
      UnknownNamesAppend(a[1..], b);
    }
  }

  lemma {:induction false} UnknownNamesFlatten(ss: seq<seq<ErasedView>>)
    ensures UnknownNames(Flatten(ss))
         == UnionAll(seq(|ss|, i requires 0 <= i < |ss| => UnknownNames(ss[i])))
  {
    var m := seq(|ss|, i requires 0 <= i < |ss| => UnknownNames(ss[i]));
    if |ss| > 0 {
      UnknownNamesAppend(ss[0], Flatten(ss[1..]));
      UnknownNamesFlatten(ss[1..]);
      assert m[1..] == seq(|ss[1..]|, i requires 0 <= i < |ss[1..]| => UnknownNames(ss[1..][i]));
    }
  }

  lemma {:induction false} InsertFoldCollectsNames(types: set<TypeName>, ns: seq<ErasedView>)
    ensures FoldLeft(InsertUnknownType, types, ns) == types + UnknownNames(ns)
    decreases |ns|
  {
    if |ns| > 0 {
      InsertFoldCollectsNames(InsertUnknownType(types, ns[0]), ns[1..]);
    }
  }

  /** `unknownTypes` is the set of type names of the opaque leaves: empty
      when there are none, one entry per name however often it occurs. */
  lemma UnknownTypesAreLeafNames(e: ErasedView)
    ensures UnknownTypes(e) == UnknownNames(Preorder(e))
    ensures forall n :: n in Preorder(e) && n.Unknown? ==> n.view.typeName in UnknownTypes(e)
    ensures forall name :: name in UnknownTypes(e) ==>
              exists n :: n in Preorder(e) && n.Unknown? && n.view.typeName == name
  {
    ForEachIsPreorderFold(e, InsertUnknownType, {});
    InsertFoldCollectsNames({}, Preorder(e));
    UnknownNamesMembers(Preorder(e));
  }

  lemma {:induction false} UnknownNamesMembers(ns: seq<ErasedView>)
    ensures forall n :: n in ns && n.Unknown? ==> n.view.typeName in UnknownNames(ns)
    ensures forall name :: name in UnknownNames(ns) ==>
              exists n :: n in ns && n.Unknown? && n.view.typeName == name
  {
    if |ns| > 0 {
      UnknownNamesMembers(ns[1..]);
      assert forall n :: n in ns ==> n == ns[0] || n in ns[1..];
    }
  }

  /** The opaque leaves of an erased view are exactly the values without a
      conformance that erasure reaches; in particular a tree built only from
      known kinds reports no unknown types. */
  lemma UnknownTypesOfWrap(v: View)
    requires WellFormed(v)
    ensures UnknownTypes(Wrap(v)) == PlainTypes(v)
  {
    UnknownTypesAreLeafNames(Wrap(v));
    LeafNamesOfWrap(v);
  }

  lemma {:induction false} LeafNamesOfWrap(v: View)
    requires WellFormed(v)
    ensures UnknownNames(Preorder(Wrap(v))) == PlainTypes(v)
    decreases v, 1
  {
    match v
    case Plain(_, _) =>
    case Bodied(_, body) =>
      ContainerLeafNames(Wrap(v));
      LeafNamesOfWrap(body);
      assert seq(1, i requires 0 <= i < 1 => UnknownNames(Preorder(Wrap(v).elements[i])))
          == [PlainTypes(body)];
    case SingleContent(_, child) =>
      LeafNamesOfWrap(child);
    case Modified(_, content) =>
      LeafNamesOfWrap(content);
    case MultipleContent(_, children) =>
      LeafNamesOfChildren(v);
    case ForEachOf(_, data, builder) =>
      LeafNamesOfForEach(v);
  }

  lemma {:induction false} LeafNamesOfChildren(v: View)
    requires WellFormed(v) && v.MultipleContent?
    ensures UnknownNames(Preorder(Wrap(v))) == PlainTypes(v)
    decreases v, 0
  {
    var r := Wrap(v);
    ContainerLeafNames(r);
    forall i | 0 <= i < |v.children|
      ensures UnknownNames(Preorder(r.elements[i])) == PlainTypes(v.children[i])
    {
      LeafNamesOfWrap(v.children[i]);
    }
    assert seq(|r.elements|, i requires 0 <= i < |r.elements| => UnknownNames(Preorder(r.elements[i])))
        == seq(|v.children|, i requires 0 <= i < |v.children| => PlainTypes(v.children[i]));
  }

  lemma {:induction false} LeafNamesOfForEach(v: View)
    requires WellFormed(v) && v.ForEachOf?
    ensures UnknownNames(Preorder(Wrap(v))) == PlainTypes(v)
    decreases v, 0
  {
    var r := Wrap(v);
    ContainerLeafNames(r);
    forall i | 0 <= i < |v.data|
      ensures UnknownNames(Preorder(r.elements[i])) == PlainTypes(v.builder[v.data[i]])
    {
      LeafNamesOfWrap(v.builder[v.data[i]]);
    }
    assert seq(|r.elements|, i requires 0 <= i < |r.elements| => UnknownNames(Preorder(r.elements[i])))
        == seq(|v.data|, i requires 0 <= i < |v.data| => PlainTypes(v.builder[v.data[i]]));
  }

  /** A container's own node is not opaque: its leaves are those of its
      elements. */
  lemma ContainerLeafNames(r: ErasedView)
    requires r.Container?
    ensures UnknownNames(Preorder(r))
         == UnionAll(seq(|r.elements|, i requires 0 <= i < |r.elements| => UnknownNames(Preorder(r.elements[i]))))
  {
    var pre := seq(|r.elements|, i requires 0 <= i < |r.elements| => Preorder(r.elements[i]));
    UnknownNamesAppend([r], Flatten(pre));
    UnknownNamesFlatten(pre);
    assert seq(|pre|, i requires 0 <= i < |pre| => UnknownNames(pre[i]))
        == seq(|r.elements|, i requires 0 <= i < |r.elements| => UnknownNames(Preorder(r.elements[i])));
  }

  // ---------------------------------------------------------------------------
  // A worked example: a vertical stack holding a titled section with three
  // rows and a padded titled section with one row

  const RowA: View := Plain("Row", "a")
  const RowB: View := Plain("Row", "b")
  const RowC: View := Plain("Row", "c")
  const RowD: View := Plain("Row", "d")
  const FirstSection: View := MultipleContent("Section", [RowA, RowB, RowC])
  const SecondSection: View := MultipleContent("Section", [RowD])
  const Stack: View := MultipleContent("VStack", [FirstSection, Modified("ModifiedContent", SecondSection)])

  /** The erased example: the padding modifier leaves no node of its own. */
  lemma StackErasure()
    ensures WellFormed(Stack)
    ensures Wrap(Stack) == Container(Stack, [
              Container(FirstSection, [Unknown(RowA), Unknown(RowB), Unknown(RowC)]),
              Container(SecondSection, [Unknown(RowD)])])
  {
    assert WellFormed(FirstSection);
    assert WellFormed(SecondSection);
    assert Wrap(FirstSection) == Container(FirstSection, [Unknown(RowA), Unknown(RowB), Unknown(RowC)]);
    assert Wrap(SecondSection) == Container(SecondSection, [Unknown(RowD)]);
  }

  /** `findAll` over the example finds the four rows in section-major order. */
  lemma StackRows()
    ensures WellFormed(Stack) && FindAll(Wrap(Stack), "Row") == [RowA, RowB, RowC, RowD]
  {
    StackErasure();
    var e1 := Container(FirstSection, [Unknown(RowA), Unknown(RowB), Unknown(RowC)]);
    var e2 := Container(SecondSection, [Unknown(RowD)]);
    assert FindAll(e1, "Row") == [RowA, RowB, RowC] by {
      assert seq(3, i requires 0 <= i < 3 => FindAll(e1.elements[i], "Row")) == [[RowA], [RowB], [RowC]];
      assert Flatten([[RowA], [RowB], [RowC]]) == [RowA] + Flatten([[RowB], [RowC]]);
      assert Flatten([[RowB], [RowC]]) == [RowB] + Flatten([[RowC]]);
    }
    assert FindAll(e2, "Row") == [RowD] by {
      assert seq(1, i requires 0 <= i < 1 => FindAll(e2.elements[i], "Row")) == [[RowD]];
    }
    assert seq(2, i requires 0 <= i < 2 => FindAll(Wrap(Stack).elements[i], "Row"))
        == [[RowA, RowB, RowC], [RowD]];
  }

  /** `findAll` over the example finds both sections, in order. */
  lemma StackSections()
    ensures WellFormed(Stack) && FindAll(Wrap(Stack), "Section") == [FirstSection, SecondSection]
  {
    StackErasure();
    SectionsHoldOnlyRows("Section");
    assert seq(2, i requires 0 <= i < 2 => FindAll(Wrap(Stack).elements[i], "Section"))
        == [[FirstSection], [SecondSection]];
  }

  /** The padding modifier is gone from the erased example. */
  lemma StackNoModifier()
    ensures WellFormed(Stack) && FindAll(Wrap(Stack), "ModifiedContent") == []
  {
    StackErasure();
    SectionsHoldOnlyRows("ModifiedContent");
    assert seq(2, i requires 0 <= i < 2 => FindAll(Wrap(Stack).elements[i], "ModifiedContent"))
        == [[], []];
  }

  /** Below the sections only rows are found. */
  lemma SectionsHoldOnlyRows(t: TypeName)
    requires t != "Row"
    ensures FindAll(Container(FirstSection, [Unknown(RowA), Unknown(RowB), Unknown(RowC)]), t) == Matches(FirstSection, t)
    ensures FindAll(Container(SecondSection, [Unknown(RowD)]), t) == Matches(SecondSection, t)
  {
    var e1 := Container(FirstSection, [Unknown(RowA), Unknown(RowB), Unknown(RowC)]);
    var e2 := Container(SecondSection, [Unknown(RowD)]);
    assert seq(3, i requires 0 <= i < 3 => FindAll(e1.elements[i], t)) == [[], [], []];
    assert Flatten<View>([[], [], []]) == Flatten<View>([[], []]);
    assert seq(1, i requires 0 <= i < 1 => FindAll(e2.elements[i], t)) == [[]];
  }

  /** The example's only opaque type is the row type, reported once. */
  lemma StackUnknownTypes()
    ensures WellFormed(Stack) && UnknownTypes(Wrap(Stack)) == {"Row"}
  {
    StackErasure();
    UnknownTypesOfWrap(Stack);
    assert PlainTypes(FirstSection) == {"Row"} by {
      assert seq(3, i requires 0 <= i < 3 => PlainTypes(FirstSection.children[i])) == [{"Row"}, {"Row"}, {"Row"}];
      assert UnionAll([{"Row"}, {"Row"}, {"Row"}]) == {"Row"} + UnionAll([{"Row"}, {"Row"}]);
      assert UnionAll([{"Row"}, {"Row"}]) == {"Row"} + UnionAll([{"Row"}]);
      assert UnionAll([{"Row"}]) == {"Row"} + UnionAll<TypeName>([]);
    }
    assert PlainTypes(SecondSection) == {"Row"} by {
      assert seq(1, i requires 0 <= i < 1 => PlainTypes(SecondSection.children[i])) == [{"Row"}];
      assert UnionAll([{"Row"}]) == {"Row"} + UnionAll<TypeName>([]);
    }
    assert seq(2, i requires 0 <= i < 2 => PlainTypes(Stack.children[i])) == [{"Row"}, {"Row"}];
    assert UnionAll([{"Row"}, {"Row"}]) == {"Row"} + UnionAll([{"Row"}]);
    assert UnionAll([{"Row"}]) == {"Row"} + UnionAll<TypeName>([]);
  }
}

=== FILE: file_details.dfy ===
/** The decisions of the file details screen
    (Core/Core/Files/FileDetails/FileDetailsViewController.swift): which
    viewer shows a downloaded file, where the local copy lives, when a
    download starts, and how the PDF annotation menu is adjusted.

    UIKit, AVKit, QuickLook, PSPDFKit, URLSession and FileManager are not
    part of this model: the file system is the set of local files that
    exist, the PDF licence is a boolean, and what the screen does next is
    an `Effect`. */
module FileDetails {
  import opened Options
  import opened Text
  import BuildIcons

  /** The fields of the `File` record that the decisions read. */
  datatype File = File(
    url: Option<string>,
    filename: Option<string>,
    mimeClass: Option<string>,
    contentType: Option<string>)

  // ---------------------------------------------------------------------------
  // Viewer selection

  datatype Viewer = Audio | Image | ARThumbnail | Pdf | Video | Web

  predicate IsAudio(mimeClass: Option<string>, contentType: Option<string>)
  {
    mimeClass == Some("audio") || (contentType.Some? && IsPrefix("audio/", contentType.value))
  }

  predicate IsImage(mimeClass: Option<string>, contentType: Option<string>)
  {
    mimeClass == Some("image") || contentType == Some("image/heic")
  }

  /** The `switch` of `downloadComplete`: the first case that matches. */
  function SelectViewer(mimeClass: Option<string>, contentType: Option<string>): (r: Viewer)
    ensures r == Audio <==> IsAudio(mimeClass, contentType)
    ensures r == Image <==> !IsAudio(mimeClass, contentType) && IsImage(mimeClass, contentType)
    ensures r == ARThumbnail <==>
      !IsAudio(mimeClass, contentType) && !IsImage(mimeClass, contentType) && contentType == Some("model/vnd.usdz+zip")
    ensures r == Pdf ==> mimeClass == Some("pdf")
    ensures r == Video ==> mimeClass == Some("video")
    ensures mimeClass == Some("pdf") || mimeClass == Some("video") ==> r != Web
  {
    if mimeClass == Some("audio") then Audio
    else if contentType.Some? && IsPrefix("audio/", contentType.value) then Audio
    else if mimeClass == Some("image") || contentType == Some("image/heic") then Image
    else if contentType == Some("model/vnd.usdz+zip") then ARThumbnail
    else if mimeClass == Some("pdf") then Pdf
    else if mimeClass == Some("video") then Video
    else Web
  }

  /** `embedPDFView` falls back to the web view without a PSPDFKit licence;
      every other viewer is shown as selected. */
  function Shown(viewer: Viewer, hasLicense: bool): (r: Viewer)
    ensures r == Pdf ==> hasLicense
    ensures r != viewer ==> viewer == Pdf && r == Web
  {
    if viewer == Pdf && !hasLicense then Web else viewer
  }

  // ---------------------------------------------------------------------------
  // Local files

  /** `filePathComponent`: `session/file/name`, when there is a session and
      a file name. */
  function FilePathComponent(sessionID: Option<string>, fileID: string, filename: Option<string>): (r: Option<string>)
    ensures r.Some? <==> sessionID.Some? && filename.Some?
    ensures r.Some? ==> IsPrefix(sessionID.value + "/", r.value) && IsSuffix("/" + filename.value, r.value)
  {
    match (sessionID, filename)
    case (Some(session), Some(name)) => Some(session + "/" + fileID + "/" + name)
    case _ => None
  }

  datatype Directory = Documents | Temporary

  /** A URL in one of the app's two directories. */
  datatype LocalURL = LocalURL(directory: Directory, path: string)

  /** The screen's state: the file record (if loaded), the session, and the
      URLs it remembers. */
  datatype Screen = Screen(
    file: Option<File>,
    sessionID: Option<string>,
    fileID: string,
    remoteURL: Option<string>,
    localURL: Option<LocalURL>)

  function MimeClass(screen: Screen): Option<string>
  {
    if screen.file.Some? then screen.file.value.mimeClass else None
  }

  function PathComponent(screen: Screen): Option<string>
  {
    FilePathComponent(screen.sessionID, screen.fileID, if screen.file.Some? then screen.file.value.filename else None)
  }

  /** `prepLocalURL`: a PDF the user already annotated is opened from the
      documents directory, everything else goes to the temporary one. */
  function PrepLocalURL(screen: Screen, existing: set<LocalURL>): (r: Option<LocalURL>)
    ensures r.None? <==> PathComponent(screen).None?
    ensures r.Some? ==> r.value.path == PathComponent(screen).value
    ensures r.Some? ==> (r.value.directory == Documents <==>
      MimeClass(screen) == Some("pdf") && LocalURL(Documents, r.value.path) in existing)
  {
    match PathComponent(screen)
    case None => None
    case Some(component) =>
      if MimeClass(screen) == Some("pdf") && LocalURL(Documents, component) in existing then Some(LocalURL(Documents, component))
      else Some(LocalURL(Temporary, component))
  }

  // ---------------------------------------------------------------------------
  // Downloading and showing

  /** What the screen does next. */
  datatype Effect =
    | Nothing
    | StartDownload(remote: string)
    | Show(viewer: Viewer, local: LocalURL)

  /** `downloadComplete`: show the file in its viewer, provided the record,
      the local URL and the local file all exist. */
  function DownloadComplete(screen: Screen, existing: set<LocalURL>, hasLicense: bool): (r: Effect)
    ensures r.Nothing? <==> screen.file.None? || screen.localURL.None? || screen.localURL.value !in existing
    ensures r.Show? ==> r.local == screen.localURL.value
    ensures r.Show? ==> r.viewer == Shown(SelectViewer(screen.file.value.mimeClass, screen.file.value.contentType), hasLicense)
    ensures !r.StartDownload?
  {
    match (screen.file, screen.localURL)
    case (Some(file), Some(local)) =>
      if local in existing then Show(Shown(SelectViewer(file.mimeClass, file.contentType), hasLicense), local)
      else Nothing
    case _ => Nothing
  }

  /** `downloadFile(at:)`: remember the local URL, then either show the
      local copy that is already there or start the download. */
  function DownloadFile(screen: Screen, url: string, existing: set<LocalURL>, hasLicense: bool): (r: (Screen, Effect))
    ensures r.0 == screen.(localURL := PrepLocalURL(screen, existing))
    ensures r.1.StartDownload? <==> r.0.localURL.None? || r.0.localURL.value !in existing
    ensures r.1.StartDownload? ==> r.1.remote == url
    ensures !r.1.StartDownload? ==> r.1 == DownloadComplete(r.0, existing, hasLicense)
  {
    var next := screen.(localURL := PrepLocalURL(screen, existing));
    if next.localURL.Some? && next.localURL.value in existing then (next, DownloadComplete(next, existing, hasLicense))
    else (next, StartDownload(url))
  }

  /** `update` once the file record is known: a download is started for a
      URL the screen has not seen yet, and only then. */
  function Update(screen: Screen, existing: set<LocalURL>, hasLicense: bool): (r: (Screen, Effect))
    ensures r.1 != Nothing ==> screen.file.Some? && screen.file.value.url.Some? && screen.remoteURL != screen.file.value.url
    ensures screen.file.Some? && screen.file.value.url.Some? && screen.remoteURL != screen.file.value.url ==>
      r.0.remoteURL == screen.file.value.url
    ensures screen.file.None? || screen.file.value.url.None? || screen.remoteURL == screen.file.value.url ==>
      r == (screen, Nothing)
    ensures r.0.file == screen.file && r.0.sessionID == screen.sessionID && r.0.fileID == screen.fileID
  {
    match screen.file
    case None => (screen, Nothing)
    case Some(file) =>
      match file.url
      case None => (screen, Nothing)
      case Some(url) =>
        if screen.remoteURL == Some(url) then (screen, Nothing)
        else DownloadFile(screen.(remoteURL := Some(url)), url, existing, hasLicense)
  }

  // ---------------------------------------------------------------------------
  // The annotation menu

  /** The raw values of PSPDFKit's `TextMenu` cases the filter looks at. */
  datatype MenuIDs = MenuIDs(note: string, inspector: string, remove: string)

  /** A PSPDFKit `MenuItem`; `action` stands for its action block. */
  datatype MenuItem = MenuItem(title: string, image: Option<string>, action: nat, identifier: string)

  const StyleTitle := "Style"

  /** `UIImage.icon(.trash)`, the Line variant by default. */
  const TrashImage := BuildIcons.AssetName("trash", BuildIcons.Line)

  /** The `compactMap` closure for one item. */
  function AdjustItem(ids: MenuIDs, item: MenuItem): (r: Option<MenuItem>)
    ensures r.None? <==> item.identifier == ids.note
    ensures r.Some? ==> r.value.identifier == item.identifier && r.value.action == item.action
    ensures r.Some? ==> r.value.title == if item.identifier == ids.inspector then StyleTitle else item.title
    ensures r.Some? && item.identifier == ids.remove ==> r.value.image == Some(TrashImage)
    ensures r.Some? && item.identifier != ids.remove && item.identifier != ids.inspector ==> r.value == item
  {
    if item.identifier == ids.note then None
    else
      var titled := if item.identifier == ids.inspector then item.(title := StyleTitle) else item;
      if titled.identifier == ids.remove then Some(MenuItem(titled.title, Some(TrashImage), titled.action, titled.identifier))
      else Some(titled)
  }

  /** The menu items the PDF viewer shows: item `i` is the closure's
      result for the `i`-th item that is not a note. */
  function AdjustMenu(ids: MenuIDs, items: seq<MenuItem>): (r: seq<MenuItem>)
    ensures |r| <= |items|
    ensures forall i :: 0 <= i < |r| ==> r[i].identifier != ids.note
    ensures |r| == |NonNotes(ids, items)|
    ensures forall i :: 0 <= i < |r| ==> AdjustItem(ids, NonNotes(ids, items)[i]) == Some(r[i])
  {
    AdjustedItemByItem(ids, items);
    Adjusted(ids, items)
  }

  /** The `compactMap` itself. */
  function Adjusted(ids: MenuIDs, items: seq<MenuItem>): (r: seq<MenuItem>)
    ensures |r| <= |items|
    ensures forall i :: 0 <= i < |r| ==> r[i].identifier != ids.note
  {
    if |items| == 0 then []
    else
      var head := match AdjustItem(ids, items[0]) case Some(item) => [item] case None => [];
      head + Adjusted(ids, items[1..])
  }

  lemma {:induction false} AdjustedItemByItem(ids: MenuIDs, items: seq<MenuItem>)
    ensures var r := Adjusted(ids, items);
            && |r| == |NonNotes(ids, items)|
            && forall i :: 0 <= i < |r| ==> AdjustItem(ids, NonNotes(ids, items)[i]) == Some(r[i])
  {
    if |items| > 0 {
      AdjustedItemByItem(ids, items[1..]);
      var rest := Adjusted(ids, items[1..]);
      var keptRest := NonNotes(ids, items[1..]);
      if items[0].identifier == ids.note {
        assert Adjusted(ids, items) == rest;
        assert NonNotes(ids, items) == keptRest;
      } else {
        var r := Adjusted(ids, items);
        var kept := NonNotes(ids, items);
        assert r == [AdjustItem(ids, items[0]).value] + rest;
        assert kept == [items[0]] + keptRest;
        forall i | 0 <= i < |r| ensures AdjustItem(ids, kept[i]) == Some(r[i]) {
          if i > 0 {
            assert r[i] == rest[i - 1] && kept[i] == keptRest[i - 1];
          }
        }
      }
    }
  }

  /** The items that are not notes, in order. */
  function NonNotes(ids: MenuIDs, items: seq<MenuItem>): (r: seq<MenuItem>)
    ensures |r| <= |items|
    ensures forall x :: x in r <==> x in items && x.identifier != ids.note
  {
    if |items| == 0 then []
    else (if items[0].identifier != ids.note then [items[0]] else []) + NonNotes(ids, items[1..])
  }
}

=== FILE: file_details_properties.dfy ===
/** What the decisions of the file details screen guarantee. */
module FileDetailsProperties {
  import opened Options
  import opened Text
  import opened ContextModels
  import ContextModelProperties
  import opened FileDetails

  // ---------------------------------------------------------------------------
  // Viewer selection as a rule table

  /** What one case of the `switch` tests. */
  datatype Pattern =
    | MimeIs(mime: string)
    | TypeHasPrefix(prefix: string)
    | TypeIs(contentType: string)

  datatype Rule = Rule(pattern: Pattern, viewer: Viewer)

  predicate Holds(p: Pattern, mimeClass: Option<string>, contentType: Option<string>)
  {
    match p
    case MimeIs(m) => mimeClass == Some(m)
    case TypeHasPrefix(prefix) => contentType.Some? && IsPrefix(prefix, contentType.value)
    case TypeIs(t) => contentType == Some(t)
  }

  /** The viewer of the first rule that holds, or the default. */
  function FirstMatch(rules: seq<Rule>, mimeClass: Option<string>, contentType: Option<string>, default: Viewer): (r: Viewer)
    ensures r != default ==> exists i :: 0 <= i < |rules| && Holds(rules[i].pattern, mimeClass, contentType) && rules[i].viewer == r
    ensures (forall i :: 0 <= i < |rules| ==> !Holds(rules[i].pattern, mimeClass, contentType)) ==> r == default
  {
    if |rules| == 0 then default
    else if Holds(rules[0].pattern, mimeClass, contentType) then rules[0].viewer
    else FirstMatch(rules[1..], mimeClass, contentType, default)
  }

  /** The cases of the `switch` in `downloadComplete`, in order. */
  const ViewerRules: seq<Rule> := [
    Rule(MimeIs("audio"), Audio),
    Rule(TypeHasPrefix("audio/"), Audio),
    Rule(MimeIs("image"), Image),
    Rule(TypeIs("image/heic"), Image),
    Rule(TypeIs("model/vnd.usdz+zip"), ARThumbnail),
    Rule(MimeIs("pdf"), Pdf),
    Rule(MimeIs("video"), Video)
  ]

  /** The selection is the first match over the rule table, the web view
      being the default. */
  lemma SelectViewerIsFirstMatch(mimeClass: Option<string>, contentType: Option<string>)
    ensures SelectViewer(mimeClass, contentType) == FirstMatch(ViewerRules, mimeClass, contentType, Web)
  {
    ViewerRulesAudioImage(mimeClass, contentType);
    ViewerRulesRest(mimeClass, contentType);
  }

  lemma ViewerRulesAudioImage(mimeClass: Option<string>, contentType: Option<string>)
    ensures FirstMatch(ViewerRules, mimeClass, contentType, Web)
        == if IsAudio(mimeClass, contentType) then Audio
           else if IsImage(mimeClass, contentType) then Image
           else FirstMatch(ViewerRules[4..], mimeClass, contentType, Web)
  {
    var r := ViewerRules;
    FirstMatchStep(r, 0, mimeClass, contentType, Web);
    FirstMatchStep(r, 1, mimeClass, contentType, Web);
    FirstMatchStep(r, 2, mimeClass, contentType, Web);
    FirstMatchStep(r, 3, mimeClass, contentType, Web);
    assert r[0..] == r;
  }

  lemma ViewerRulesRest(mimeClass: Option<string>, contentType: Option<string>)
    ensures FirstMatch(ViewerRules[4..], mimeClass, contentType, Web)
        == if contentType == Some("model/vnd.usdz+zip") then ARThumbnail
           else if mimeClass == Some("pdf") then Pdf
           else if mimeClass == Some("video") then Video
           else Web
  {
    var r := ViewerRules;
    FirstMatchStep(r, 4, mimeClass, contentType, Web);
    FirstMatchStep(r, 5, mimeClass, contentType, Web);
    FirstMatchStep(r, 6, mimeClass, contentType, Web);
    assert r[7..] == [];
  }

  lemma FirstMatchStep(rules: seq<Rule>, k: nat, mimeClass: Option<string>, contentType: Option<string>, default: Viewer)
    requires k < |rules|
    ensures FirstMatch(rules[k..], mimeClass, contentType, default)
        == if Holds(rules[k].pattern, mimeClass, contentType) then rules[k].viewer
           else FirstMatch(rules[k + 1..], mimeClass, contentType, default)
  {
    assert rules[k..][1..] == rules[k + 1..];
  }

  /** An audio content type wins over any mime class, even `pdf`. */
  lemma AudioContentTypeWins(mimeClass: Option<string>, contentType: string)
    requires IsPrefix("audio/", contentType)
    ensures SelectViewer(mimeClass, Some(contentType)) == Audio
  {
  }

  lemma PdfWithAudioContentType()
    ensures SelectViewer(Some("pdf"), Some("audio/mpeg")) == Audio
  {
    AudioContentTypeWins(Some("pdf"), "audio/mpeg");
  }

  /** Without a licence a PDF is shown in the web view, with one in the PDF
      viewer. */
  lemma PdfFallsBackToWeb(hasLicense: bool)
    ensures Shown(SelectViewer(Some("pdf"), None), hasLicense) == if hasLicense then Pdf else Web
  {
  }

  // ---------------------------------------------------------------------------
  // Local files

  /** The path component splits back into the session, the file id and the
      file name, when none of them is empty or holds a `/`. */
  lemma FilePathComponentSplits(session: string, fileID: string, name: string)
    requires session != [] && '/' !in session
    requires fileID != [] && '/' !in fileID
    requires name != [] && '/' !in name
    ensures FilePathComponent(Some(session), fileID, Some(name)).Some?
    ensures SplitOn(FilePathComponent(Some(session), fileID, Some(name)).value, '/') == [session, fileID, name]
  {
    var parts := [session, fileID, name];
    assert parts[1..] == [fileID, name];
    assert parts[1..][1..] == [name];
    assert Join(parts[1..][1..], "/") == name;
    assert Join(parts[1..], "/") == fileID + "/" + name;
    assert Join(parts, "/") == session + "/" + (fileID + "/" + name);
    assert session + "/" + (fileID + "/" + name) == session + "/" + fileID + "/" + name;
    ContextModelProperties.SplitJoinRoundTrip(parts, '/');
  }

  /** Without a session or a file name there is no local URL: the download
      still starts, but its completion shows nothing. */
  lemma DownloadWithoutPath(screen: Screen, url: string, existing: set<LocalURL>, hasLicense: bool)
    requires PathComponent(screen).None?
    ensures var (next, effect) := DownloadFile(screen, url, existing, hasLicense);
            effect == StartDownload(url) && DownloadComplete(next, existing, hasLicense) == Nothing
  {
  }

  /** A PDF the user annotated before is shown from the documents
      directory, without downloading it again. */
  lemma AnnotatedPdfReopened(screen: Screen, url: string, existing: set<LocalURL>, hasLicense: bool)
    requires screen.file.Some? && screen.file.value.mimeClass == Some("pdf")
    requires PathComponent(screen).Some?
    requires LocalURL(Documents, PathComponent(screen).value) in existing
    ensures var (next, effect) := DownloadFile(screen, url, existing, hasLicense);
            effect.Show? && effect.local == LocalURL(Documents, PathComponent(screen).value)
  {
  }

  /** A file that is not a PDF is always kept in the temporary directory. */
  lemma OtherFilesInTemporary(screen: Screen, existing: set<LocalURL>)
    requires MimeClass(screen) != Some("pdf")
    ensures PrepLocalURL(screen, existing).Some? ==> PrepLocalURL(screen, existing).value.directory == Temporary
  {
  }

  // ---------------------------------------------------------------------------
  // Updates

  /** An update settles the screen: updating again with the same record
      changes nothing and downloads nothing. */
  lemma UpdateSettles(screen: Screen, existing: set<LocalURL>, hasLicense: bool)
    ensures var next := Update(screen, existing, hasLicense).0;
            Update(next, existing, hasLicense) == (next, Nothing)
  {
  }

  /** A changed URL is downloaded again, unless a local copy exists. */
  lemma NewURLDownloads(screen: Screen, existing: set<LocalURL>, hasLicense: bool)
    requires screen.file.Some? && screen.file.value.url.Some?
    requires screen.remoteURL != screen.file.value.url
    requires PrepLocalURL(screen, existing).None? || PrepLocalURL(screen, existing).value !in existing
    ensures Update(screen, existing, hasLicense).1 == StartDownload(screen.file.value.url.value)
  {
    assert PrepLocalURL(screen.(remoteURL := screen.file.value.url), existing) == PrepLocalURL(screen, existing);
  }

  // ---------------------------------------------------------------------------
  // The annotation menu

  lemma AdjustMenuAppend(ids: MenuIDs, a: seq<MenuItem>, b: seq<MenuItem>)
    ensures AdjustMenu(ids, a + b) == AdjustMenu(ids, a) + AdjustMenu(ids, b)
  {
    AdjustedAppend(ids, a, b);
  }

  lemma {:induction false} AdjustedAppend(ids: MenuIDs, a: seq<MenuItem>, b: seq<MenuItem>)
    ensures Adjusted(ids, a + b) == Adjusted(ids, a) + Adjusted(ids, b)
  {
    if |a| == 0 {
      assert a + b == b;
    } else {
      assert (a + b)[0] == a[0];
      assert (a + b)[1..] == a[1..] + b;
      AdjustedAppend(ids, a[1..], b);
    }
  }

  /** The menu keeps every item that is not a note, in order, with its
      identifier and action: the inspector item retitled `Style`, the
      remove item with the trash icon, every other item as it was. */
  lemma AdjustMenuKeepsOrder(ids: MenuIDs, items: seq<MenuItem>)
    ensures var r := AdjustMenu(ids, items);
            var kept := NonNotes(ids, items);
            && |r| == |kept|
            && (forall i :: 0 <= i < |r| ==> r[i].identifier == kept[i].identifier && r[i].action == kept[i].action)
            && (forall i :: 0 <= i < |r| && kept[i].identifier == ids.inspector ==> r[i].title == StyleTitle)
            && (forall i :: 0 <= i < |r| && kept[i].identifier == ids.remove ==> r[i].image == Some(TrashImage))
            && (forall i :: 0 <= i < |r| && kept[i].identifier != ids.inspector && kept[i].identifier != ids.remove ==> r[i] == kept[i])
  {
    var r := AdjustMenu(ids, items);
    var kept := NonNotes(ids, items);
    forall i | 0 <= i < |r|
      ensures AdjustItem(ids, kept[i]) == Some(r[i])
    {
    }
  }

  /** Items the filter does not look at come through untouched. */
  lemma {:induction false} AdjustMenuKeepsOthers(ids: MenuIDs, items: seq<MenuItem>)
    requires forall i :: 0 <= i < |items| ==>
      items[i].identifier != ids.note && items[i].identifier != ids.inspector && items[i].identifier != ids.remove
    ensures AdjustMenu(ids, items) == items
  {
    if |items| > 0 {
      AdjustMenuKeepsOthers(ids, items[1..]);
      assert items == [items[0]] + items[1..];
    }
  }

  /** Adjusting an adjusted menu changes nothing more. */
  lemma {:induction false} AdjustMenuIdempotent(ids: MenuIDs, items: seq<MenuItem>)
    ensures AdjustMenu(ids, AdjustMenu(ids, items)) == AdjustMenu(ids, items)
  {
    if |items| > 0 {
      var head := match AdjustItem(ids, items[0]) case Some(item) => [item] case None => [];
      var rest := AdjustMenu(ids, items[1..]);
      AdjustMenuAppend(ids, head, rest);
      AdjustMenuIdempotent(ids, items[1..]);
      if head != [] {
        assert AdjustItem(ids, head[0]) == Some(head[0]);
        assert head[1..] == [];
      }
    }
  }
}

=== FILE: options.dfy ===
/** The optional value used throughout the model for Swift optionals,
    JavaScript `undefined` and "no result" answers. */
module Options {

  datatype Option<+T> = None | Some(value: T) {

    /** The wrapped value, or `default` when there is none (Swift `??`). */
    function GetOr(default: T): T
    {
      match this
      case Some(v) => v
      case None => default
    }
  }
}

=== FILE: redux_promise.dfy ===
/** The promise middleware of the Teacher app
    (rn/Teacher/src/redux/middleware/redux-promise.js): an action whose
    payload carries a thenable `promise` is passed on tagged `pending`, and
    copies of it are dispatched when the promise settles.

    Values are JavaScript values; objects are maps from keys to values, so
    key order is not modelled. `isFSA` from `flux-standard-action` is a
    parameter, and when the promise settles is not modelled: the
    resolved and rejected copies are functions of the action and the
    settled value. */
module ReduxPromise {
  /** A JavaScript value. Functions are only told apart by identity and
      carry no properties of their own. */
  datatype Value =
    | Undefined
    | Null
    | Bool(b: bool)
    | Num(n: int)
    | Str(s: string)
    | Fn(id: nat)
    | Obj(fields: map<string, Value>)

  predicate Truthy(v: Value)
  {
    match v
    case Undefined => false
    case Null => false
    case Bool(b) => b
    case Num(n) => n != 0
    case Str(s) => s != ""
    case Fn(_) => true
    case Obj(_) => true
  }

  /** Property access `v.key`; `undefined` for a missing key and for values
      without properties. On `undefined` or `null` JavaScript throws a
      `TypeError` instead: `Route` rules that out before it reads, and the
      only other read of a possibly missing value, `action.payload.promise`,
      happens only when the payload is truthy. */
  function Get(v: Value, key: string): (r: Value)
    ensures r != Undefined ==> v.Obj? && key in v.fields
  {
    if v.Obj? && key in v.fields then v.fields[key] else Undefined
  }

  /** `isPromise`: truthy with a function-valued `then`. */
  predicate IsPromise(v: Value)
  {
    Truthy(v) && Get(v, "then").Fn?
  }

  /** `action.payload && action.payload.promise`. */
  function PromiseOf(action: Value): (r: Value)
    ensures Truthy(r) ==> Get(action, "payload").Obj? && r == Get(Get(action, "payload"), "promise")
  {
    var payload := Get(action, "payload");
    if Truthy(payload) then Get(payload, "promise") else payload
  }

  /** The condition of the middleware's `if`. */
  predicate Qualifies(isFSA: Value -> bool, action: Value)
  {
    isFSA(action) && IsPromise(PromiseOf(action)) && !Truthy(Get(action, "error"))
  }

  /** What the middleware does with an action right away: hand it to
      `next` unchanged, hand `next` a copy tagged `pending` and attach the
      settlement handlers, or throw the `TypeError` of reading `payload`
      from a `null` or `undefined` action. */
  datatype Outcome =
    | PassThrough(action: Value)
    | Tagged(next: Value)
    | Throws

  /** `{ ...o, key: v }` for an object `o`. */
  function With(o: Value, key: string, v: Value): (r: Value)
    requires o.Obj?
    ensures r.Obj? && Get(r, key) == v
    ensures forall k :: k != key ==> Get(r, k) == Get(o, k)
  {
    Obj(o.fields[key := v])
  }

  /** `delete o.key` on an object `o`. */
  function Without(o: Value, key: string): (r: Value)
    requires o.Obj?
    ensures r.Obj? && Get(r, key) == Undefined
    ensures forall k :: k != key ==> Get(r, k) == Get(o, k)
  {
    Obj(o.fields - {key})
  }

  /** The middleware's handling of one action. */
  function Route(isFSA: Value -> bool, action: Value): (r: Outcome)
    ensures r.Throws? <==> action.Undefined? || action.Null?
    ensures r.PassThrough? <==> !r.Throws? && !Qualifies(isFSA, action)
    ensures r.PassThrough? ==> r.action == action
    ensures r.Tagged? ==> Get(r.next, "pending") == Bool(true)
    ensures r.Tagged? ==> forall k :: k != "pending" ==> Get(r.next, k) == Get(action, k)
  {
    if action.Undefined? || action.Null? then Throws
    else if Qualifies(isFSA, action) then Tagged(With(action, "pending", Bool(true)))
    else PassThrough(action)
  }

  /** The action dispatched when the promise resolves with `result`: the
      payload gains `result` and loses `promise`. */
  function Resolved(action: Value, result: Value): (r: Value)
    requires IsPromise(PromiseOf(action))
    ensures r.Obj?
    ensures forall k :: k != "payload" ==> Get(r, k) == Get(action, k)
    ensures Get(Get(r, "payload"), "result") == result
    ensures Get(Get(r, "payload"), "promise") == Undefined
    ensures forall k :: k != "result" && k != "promise" ==> Get(Get(r, "payload"), k) == Get(Get(action, "payload"), k)
  {
    var payload := Without(With(Get(action, "payload"), "result", result), "promise");
    With(action, "payload", payload)
  }

  /** The action dispatched when the promise rejects with `error`: the
      payload gains `error` and keeps `promise`, and the action is flagged
      `error: true`. */
  function Rejected(action: Value, error: Value): (r: Value)
    requires IsPromise(PromiseOf(action))
    ensures r.Obj?
    ensures Get(r, "error") == Bool(true)
    ensures forall k :: k != "payload" && k != "error" ==> Get(r, k) == Get(action, k)
    ensures Get(Get(r, "payload"), "error") == error
    ensures forall k :: k != "error" ==> Get(Get(r, "payload"), k) == Get(Get(action, "payload"), k)
  {
    var payload := With(Get(action, "payload"), "error", error);
    With(With(action, "payload", payload), "error", Bool(true))
  }
}

=== FILE: redux_promise_properties.dfy ===
/** What the promise middleware guarantees. */
module ReduxPromiseProperties {
  import opened ReduxPromise

  /** A promise, as the middleware recognises one, is an object with a
      function-valued `then`. */
  lemma IsPromiseMeans(v: Value)
    ensures IsPromise(v) <==> v.Obj? && "then" in v.fields && v.fields["then"].Fn?
  {
  }

  /** The resolved copy is never tagged again: it has no `promise` left. */
  lemma ResolvedPassesThrough(isFSA: Value -> bool, action: Value, result: Value)
    requires IsPromise(PromiseOf(action))
    ensures Route(isFSA, Resolved(action, result)) == PassThrough(Resolved(action, result))
  {
    var r := Resolved(action, result);
    assert !IsPromise(PromiseOf(r)) by {
      assert Get(Get(r, "payload"), "promise") == Undefined;
    }
  }

  /** The rejected copy is never tagged again: it carries `error: true`. */
  lemma RejectedPassesThrough(isFSA: Value -> bool, action: Value, error: Value)
    requires IsPromise(PromiseOf(action))
    ensures Route(isFSA, Rejected(action, error)) == PassThrough(Rejected(action, error))
  {
  }

  /** Whatever the promise settles to, the action that follows from a
      tagged one passes through: no action is awaited twice. */
  lemma SettledPassesThrough(isFSA: Value -> bool, action: Value, settled: Value, resolved: bool)
    requires Route(isFSA, action).Tagged?
    ensures var copy := if resolved then Resolved(action, settled) else Rejected(action, settled);
            Route(isFSA, copy) == PassThrough(copy)
  {
    if resolved {
      ResolvedPassesThrough(isFSA, action, settled);
    } else {
      RejectedPassesThrough(isFSA, action, settled);
    }
  }

  /** A payload that is itself a promise, but has no `promise` member, is
      not awaited: the action passes through. */
  lemma PromisePayloadPassesThrough(isFSA: Value -> bool, action: Value)
    requires IsPromise(Get(action, "payload"))
    requires Get(Get(action, "payload"), "promise") == Undefined
    ensures Route(isFSA, action) == PassThrough(action)
  {
  }

  /** An action flagged as an error is never awaited. */
  lemma ErrorActionPassesThrough(isFSA: Value -> bool, action: Value)
    requires Truthy(Get(action, "error"))
    ensures Route(isFSA, action) == PassThrough(action)
  {
  }
}

=== FILE: text.dfy ===
/** Character and string helpers shared by the modules of this model.
    Case mapping covers ASCII letters only. */
module Text {
  import opened Options

  predicate IsUpperAscii(c: char) { 'A' <= c <= 'Z' }

  predicate IsLowerAscii(c: char) { 'a' <= c <= 'z' }

  /** `[A-Za-z0-9_]`, the characters matched by the regular-expression class `\w`. */
  predicate IsWordChar(c: char)
  {
    IsUpperAscii(c) || IsLowerAscii(c) || '0' <= c <= '9' || c == '_'
  }

  function LowerChar(c: char): char
  {
    if IsUpperAscii(c) then (c as int + 32) as char else c
  }

  function UpperChar(c: char): char
  {
    if IsLowerAscii(c) then (c as int - 32) as char else c
  }

  /** Lowercases every ASCII letter and keeps every other character. */
  function Lower(s: string): (r: string)
    ensures |r| == |s|
    ensures forall i :: 0 <= i < |s| ==> r[i] == LowerChar(s[i])
  {
    seq(|s|, i requires 0 <= i < |s| => LowerChar(s[i]))
  }

  lemma LowerIdempotent(s: string)
    ensures Lower(Lower(s)) == Lower(s)
  {
  }

  lemma LowerConcat(a: string, b: string)
    ensures Lower(a + b) == Lower(a) + Lower(b)
  {
  }

  predicate IsPrefix<T(==)>(p: seq<T>, s: seq<T>)
  {
    |p| <= |s| && s[..|p|] == p
  }

  predicate IsSuffix<T(==)>(p: seq<T>, s: seq<T>)
  {
    |p| <= |s| && s[|s| - |p|..] == p
  }

  /** `pat` occurs in `s` starting at index `i`. */
  predicate OccursAt<T(==)>(s: seq<T>, pat: seq<T>, i: int)
  {
    0 <= i && i + |pat| <= |s| && s[i..i + |pat|] == pat
  }

  /** The first index at or after `from` where `pat` occurs, if any. */
  function IndexFrom<T(==)>(s: seq<T>, pat: seq<T>, from: nat): (r: Option<nat>)
    ensures r.Some? ==> from <= r.value && OccursAt(s, pat, r.value)
    ensures r.Some? ==> forall j :: from <= j < r.value ==> !OccursAt(s, pat, j)
    ensures r.None? ==> forall j :: from <= j ==> !OccursAt(s, pat, j)
    decreases |s| - from
  {
    if from + |pat| > |s| then None
    else if s[from..from + |pat|] == pat then Some(from)
    else IndexFrom(s, pat, from + 1)
  }

  /** `pat` occurs somewhere in `s`. */
  predicate Contains<T(==)>(s: seq<T>, pat: seq<T>)
  {
    IndexFrom(s, pat, 0).Some?
  }

  /** Joins `parts` with `sep` between neighbours (`Array.prototype.join`,
      Swift `joined(separator:)`). */
  function Join<T>(parts: seq<seq<T>>, sep: seq<T>): seq<T>
  {
    if |parts| == 0 then []
    else if |parts| == 1 then parts[0]
    else parts[0] + sep + Join(parts[1..], sep)
  }

  /** Joining a part in front of at least one other adds one separator. */
  lemma JoinCons<T>(a: seq<T>, ps: seq<seq<T>>, sep: seq<T>)
    requires |ps| >= 1
    ensures Join([a] + ps, sep) == a + sep + Join(ps, sep)
  {
    assert ([a] + ps)[1..] == ps;
  }

  /** The concatenation of all parts, with nothing in between. */
  function Concat<T>(parts: seq<seq<T>>): seq<T>
  {
    if |parts| == 0 then [] else parts[0] + Concat(parts[1..])
  }
}
